=== FILE: README.md ===
# EZLaw JSON viewer and key setup — a Dafny model

This project models three pieces of the EZLaw repository and proves properties
of them:

- **The searchable state dropdown** of `JSONViewer` (`static/js/script.js`):
  the `.dropdown-item` elements with their `hidden` and `highlighted` classes,
  the container's `open` class, `highlightedIndex`, `selectedStateData` and the
  input box's value, as one immutable `Dropdown` value. The handlers are pure
  functions: `handleStatesInput` (`Input`), `handleKeyNavigation` (`KeyNav`),
  `selectState` (`Select`), `clearStateSelection` (`Clear`),
  `restoreOriginalOrder` (`Restored`), `openDropdown` / `closeDropdown`
  (`Open` / `Close`) and `updateHighlight` (`MarkVisible`). `Step` dispatches the
  events the page listens to. Both sorts in the dropdown use one insertion
  sort keyed by (rank, text) (module `Sorting`).
- **The JSON renderer** `formatJSON` with `escapeHtml` (module `JsonFormat`).
  Escaping follows the "escaping a string" step of HTML fragment serialization
  (WHATWG HTML Living Standard, section 13.3, not in attribute mode): `&`, U+00A0,
  `<` and `>` become `&amp;`, `&nbsp;`, `&lt;` and `&gt;`. A reader for the
  markup (module `JsonParse`) is the renderer's partner. Reading back any
  rendering gives the original document, so the rendering is complete and
  unambiguous.
- **The shell-profile edit** of `setup_gemini.py` (module `ShellProfile`): the
  text written to `~/.zshrc` as a function of the file's old text and the key.
  The surrounding prompts are modelled as `Setup`.

Modules `Text` (trim, strip, ASCII lower-casing, prefix and substring tests,
lexicographic order) and `Wrappers` (`Option`) hold the library calls both
languages provide.

## Operations

Each function that models a handler, with the lines it models and the lemmas
that state its behaviour (all rows of the table below):

- `StatesDropdown.Init` (static/js/script.js:20-26 and the page's item markup):
  `InitWf`.
- `StatesDropdown.Step` (static/js/script.js:228-251), dispatching each event
  the page listens to: `StepWf`.
- `StatesDropdown.Input` (static/js/script.js:253-330): `InputFilters`,
  `InputNonEmpty`, `InputRestores`, `EnterAfterEmptiedQuery`.
- `StatesDropdown.Priority` (static/js/script.js:268-290): `MatchIff`,
  `RankingExample`, `SubstringExample`.
- `StatesDropdown.Matching` / `NotMatching` (static/js/script.js:263-298):
  `Matching`, `MatchingCount`, `NotMatchingCount`, `MatchingSplit`.
- `StatesDropdown.Filtered` (static/js/script.js:300-319): `FilteredVisible`,
  `FilteredHides`, `FilteredEntries`, `FilteredUnmarked`.
- `StatesDropdown.KeyNav` (static/js/script.js:332-360): `ArrowStep`,
  `ArrowDownClamps`, `ArrowUpClamps`, `EnterSelectsHighlighted`,
  `EnterWithoutHighlight`, `KeyNavWf`, `DismissAndFocus` (Escape).
- `StatesDropdown.MarkVisible` (static/js/script.js:362-376): `MarkVisible`,
  `MarkVisibleMarks`.
- `StatesDropdown.Select` (static/js/script.js:378-392):
  `EnterSelectsHighlighted`, `ClickSelects`, `StepWf`.
- `StatesDropdown.Clear` (static/js/script.js:394-404): `ClearResets`,
  `ClearIdempotent`.
- `StatesDropdown.Restored` (static/js/script.js:406-420): `InputRestores`,
  `ClearResets`, `ClearIdempotent`; its sort is `Sorting.Sort` with
  `SortStable`, `SortOfSorted` and `SortIdempotent`.
- `StatesDropdown.Open` / `Close` (static/js/script.js:422-441):
  `DismissAndFocus`, and the `open`, index and highlight clauses of
  `InputNonEmpty`, `EnterSelectsHighlighted` and `ClickSelects`.
- `JsonFormat.Format` (static/js/script.js:111-169): `ArrayLayout`,
  `ObjectLayout`, `FormatOnlyOwnTags`, and `JsonParse.ReadFormat` /
  `JsonParse.RoundTrip`.
- `JsonFormat.Escape` (static/js/script.js:171-175): `Escape`,
  `EscapeRoundTrip`.
- `ShellProfile.Rewrite` (setup_gemini.py:61-74): `RewriteAppends`,
  `RewriteUpdates`, `RewriteWithoutExport`, `RewriteExportsKey`,
  `RewriteMentions`, `RewriteIdempotent`.
- `ShellProfile.UpdateLine` / `UpdateLines` (setup_gemini.py:64-71):
  `RewriteUpdates`, `RewriteWithoutExport`.
- `ShellProfile.Setup` (setup_gemini.py:15-78): `Setup`, `SetupWritesIff`,
  `SetupTwice`.

Behaviour of the code worth knowing:

- `escapeHtml` leaves quotes alone: the serializer it relies on writes `"` and
  `'` unchanged outside attributes. `EscapedText` promises no `<`, `>` or
  no-break space, and every `&` starting an entity. That is enough for
  `FormatOnlyOwnTags`: every `<` in a rendering begins one of the renderer's
  own tags.
- A newline inside a string is copied through, so a string scalar can span
  several lines of the rendering.
- The query `ab` matches Alabama with priority 3, because "alabama" contains
  "ab" at position 2 (`SubstringExample`).
- Clearing the selection does not open the dropdown; it ends with `focus()`,
  and the `focus` listener opens it. That listener is the separate `FocusInput`
  event.

## Model

| member | source | states |
|---|---|---|
| `StatesDropdown.MatchIff` | static/js/script.js:269-291 | An entry matches (priority > 0) exactly when the query occurs somewhere in the lower-cased name or the lower-cased code. |
| `StatesDropdown.RankingExample` | static/js/script.js:274-285 | For the query `al`, Alabama has priority 1 (name prefix) and California priority 3 (name substring only). |
| `StatesDropdown.SubstringExample` | static/js/script.js:282-285 | For the query `ab`, Alabama has priority 3, because "alabama" contains "ab". |
| `StatesDropdown.Matching` | static/js/script.js:268-298 | The matched list holds only entries with priority > 0 and holds every such entry of the page. |
| `StatesDropdown.MatchingCount` | static/js/script.js:268-298 | The matched list keeps each matching entry with its full multiplicity and no other entry. |
| `StatesDropdown.NotMatchingCount` | static/js/script.js:268-298 | The items left hidden are exactly the non-matching entries, with multiplicity. |
| `StatesDropdown.MatchingSplit` | static/js/script.js:268-298 | Matches and non-matches together are the page's entries: nothing is lost or duplicated. |
| `StatesDropdown.FilteredVisible` | static/js/script.js:301-319 | After filtering, the visible items are exactly the matches sorted by (priority, lower-cased name). |
| `StatesDropdown.FilteredHides` | static/js/script.js:309-319 | After filtering, an item is hidden exactly when its entry does not match. |
| `StatesDropdown.FilteredEntries` | static/js/script.js:309-319 | Filtering only moves items: the page keeps the same multiset of entries. |
| `StatesDropdown.FilteredUnmarked` | static/js/script.js:309-312 | After filtering no item carries the `highlighted` class. |
| `StatesDropdown.InputFilters` | static/js/script.js:253-330 | For a non-blank query, the visible list is a permutation of the matches and is sorted by (priority, name). Non-matches are hidden, and no entry is lost. The dropdown is open iff something is visible. The highlight is reset to -1 with no item marked. |
| `StatesDropdown.InputNonEmpty` | static/js/script.js:322-329 | For a non-blank query, the dropdown opens iff at least one entry matched and closes otherwise. The visible count equals the match count. |
| `StatesDropdown.InputRestores` | static/js/script.js:254-260 | A blank (after lower-casing and trimming) query shows every item in name order without any class and opens the dropdown. It keeps the same entries and leaves `highlightedIndex` unchanged. |
| `StatesDropdown.EnterAfterEmptiedQuery` | static/js/script.js:257-261 | Because the blank-query branch keeps the old index, Enter after erasing the query selects the visible item at that index, although no item is highlighted. |
| `StatesDropdown.ClearResets` | static/js/script.js:394-420 | Clearing drops the selection, empties the box and resets the index. It shows all items in name order with no class, keeps the entries and does not change `open`. |
| `StatesDropdown.ClearIdempotent` | static/js/script.js:394-420 | Clearing twice is the same as clearing once. |
| `StatesDropdown.MarkVisible` | static/js/script.js:362-376 | Highlighting leaves every item's entry and `hidden` class in place; only `highlighted` classes change. |
| `StatesDropdown.MarkVisibleMarks` | static/js/script.js:362-376 | After `updateHighlight(k)`, exactly the visible item at position k is highlighted (none when k is out of range), given hidden items are unhighlighted. |
| `StatesDropdown.ArrowStep` | static/js/script.js:336-346 | One arrow key moves the index to min(h+1, n-1) (down) or max(h-1, -1) (up), acting on the visible list whether or not the dropdown is open. It keeps the invariant and the visible list, and changes nothing else: a closed dropdown stays closed (so ArrowDown can highlight an item nobody sees), and the selection, the box text and the order of the items stay. |
| `StatesDropdown.ArrowDownClamps` | static/js/script.js:336-340 | k presses of ArrowDown leave the index at min(h+k, n-1): it stops at the last visible item and never wraps. |
| `StatesDropdown.ArrowUpClamps` | static/js/script.js:342-346 | k presses of ArrowUp leave the index at max(h-k, -1). |
| `StatesDropdown.EnterSelectsHighlighted` | static/js/script.js:348-353 | Enter on a highlighted item selects that item's entry, puts its name in the box and closes the dropdown with no highlight left. |
| `StatesDropdown.EnterWithoutHighlight` | static/js/script.js:348-353 | Enter with index -1 changes nothing. |
| `StatesDropdown.KeyNavWf` | static/js/script.js:332-360 | Every key keeps the invariant: the index stays in -1..n-1 (n visible items), and the highlighted item is the one at the index, or there is none. The page's entries are unchanged and stay in place. |
| `StatesDropdown.InitWf` | static/js/script.js:20-26 | The page starts with nothing selected and index -1 with no item marked. It satisfies the invariant and shows every state in its given order. |
| `StatesDropdown.DismissAndFocus` | static/js/script.js:228-251 | The `focus` and outside-click listeners, with the Escape branch at lines 355-358 and `closeDropdown` at 430-441. Escape closes the dropdown, resets the index to -1 and unmarks every item, keeping the entries, the selection and the box text. A click outside does exactly what Escape does. Focusing the box only opens it and changes nothing else. |
| `StatesDropdown.ClickSelects` | static/js/script.js:378-392 | `selectState`, called by the item listener at lines 236-240. Clicking an item selects its entry and puts its name in the box, whatever is highlighted. It closes the dropdown with index -1 and no item marked, and the entries stay. |
| `StatesDropdown.StepWf` | static/js/script.js:228-251 | Every event the page listens to keeps the invariant and the page's entries. |
| `StatesDropdown.VisibleRankIndex` | static/js/script.js:333 | A visible item's position among the visible items indexes that item's entry in the visible list. |
| `Sorting.Sort` | static/js/script.js:301-306 | The sort's result is ordered by the key and is a permutation of its input. |
| `Sorting.SortStable` | static/js/script.js:301-306 | The sort is stable: the elements with any one key appear in the result in the same order as in the input, as with `Array.prototype.sort`. |
| `Sorting.InsertStable` | static/js/script.js:410-412 | Inserting an element puts it in front of every element with the same key and keeps the others' order. |
| `Sorting.Insert` | static/js/script.js:410-412 | Inserting into an ordered list keeps it ordered and adds exactly the one element. |
| `Sorting.SortOfSorted` | static/js/script.js:410-412 | Sorting an already ordered list returns it unchanged. |
| `Sorting.SortIdempotent` | static/js/script.js:406-420 | Restoring the order twice is the same as once. |
| `Sorting.KeyLeTrans` | static/js/script.js:301-306 | The comparator (priority, then name) is transitive. |
| `Text.IncludesIff` | static/js/script.js:283-287 | The scanning `includes` test holds exactly when the pattern occurs at some position. |
| `Text.Strip` | static/js/script.js:254 | `trim` returns the slice between the first and last non-whitespace characters. It returns empty exactly when the input is all whitespace. |
| `Text.Lower` | static/js/script.js:254 | Lower-casing keeps the length, maps each character on its own and leaves no upper-case ASCII letter. |
| `Text.LexLeTrans` | static/js/script.js:305 | The name order used for tie-breaks is transitive. |
| `Text.LexLeAntisym` | static/js/script.js:411 | Two names each ordered before the other are equal. |
| `JsonFormat.Escape` | static/js/script.js:171-175 | The escaped text contains no `<`, `>` or no-break space, and every `&` in it begins `&amp;`, `&lt;`, `&gt;` or `&nbsp;`. |
| `JsonFormat.EscapeRoundTrip` | static/js/script.js:171-175 | Escaping loses nothing: unescaping the result gives the original text. |
| `JsonFormat.IntText` | static/js/script.js:122-124 | An integer is written as an optional minus sign followed by decimal digits, which is what JavaScript prints for magnitudes up to 2^53. |
| `JsonFormat.ArrayLayout` | static/js/script.js:130-145 | An empty array renders as the compact `[]` span. A non-empty one renders as `[`, then one line per element indented by 2(indent+1) spaces, then `]` indented by 2·indent spaces. Each line ends in a comma span exactly when it is not the last, so n elements get n-1 commas. |
| `JsonFormat.ObjectLayout` | static/js/script.js:147-166 | The same layout for objects: compact `{}` when empty, otherwise one line per member. Each member line has the escaped, quoted key span, the `: ` span, the value, and a comma on all but the last. |
| `JsonFormat.FormatOnlyOwnTags` | static/js/script.js:111-169 | No markup injection: every `<` in a rendering begins one of the renderer's own `<span class="json-…">` or `</span>` tags, whatever the strings and keys contain. |
| `JsonFormat.QuotedNoLt` | static/js/script.js:119 | A quoted, escaped string literal contains no `<`. |
| `JsonParse.IntRoundTrip` | static/js/script.js:122-124 | Reading a rendered integer gives the integer back. |
| `JsonParse.UnquoteQuoted` | static/js/script.js:119 | Reading a rendered string literal gives the string back. |
| `JsonParse.SpanParts` | static/js/script.js:115-127 | A span reads back as its class and text, provided the text has no `<` and the class has no `"`. |
| `JsonParse.ReadFormat` | static/js/script.js:111-169 | Reading the rendering of any value at any indentation, followed by any text, returns the value and exactly that text. |
| `JsonParse.ReadElementLines` | static/js/script.js:135-144 | The element lines of a non-empty array read back as exactly its elements, in order. |
| `JsonParse.ReadMemberText` | static/js/script.js:155-158 | A member line reads back as its key and value. |
| `JsonParse.ReadMemberLines` | static/js/script.js:153-165 | The member lines of a non-empty object read back as exactly its members, in order. |
| `JsonParse.RoundTrip` | static/js/script.js:111-169 | A full rendering reads back as exactly the rendered document: no two documents render alike. |
| `ShellProfile.Split` | setup_gemini.py:64 | `split('\n')` yields at least one piece and no piece contains a newline. |
| `ShellProfile.JoinSplit` | setup_gemini.py:64-71 | Joining the pieces with newlines gives the text back. |
| `ShellProfile.SplitJoin` | setup_gemini.py:64-71 | Splitting newline-free lines joined by newlines gives the lines back. |
| `ShellProfile.SplitCount` | setup_gemini.py:64 | There is one piece per newline, plus one. |
| `ShellProfile.RewriteAppends` | setup_gemini.py:72-74 | If the profile does not mention `GEMINI_API_KEY`, it is kept as a prefix. Exactly three lines follow its last line: the comment, `export GEMINI_API_KEY="<key>"` and an empty line. |
| `ShellProfile.RewriteUpdates` | setup_gemini.py:62-71 | If the profile mentions `GEMINI_API_KEY`, the line count stays the same. Each line that starts with `export GEMINI_API_KEY=` becomes the export of the new key, and every other line is unchanged. |
| `ShellProfile.RewriteWithoutExport` | setup_gemini.py:62-71 | A profile that mentions the variable but has no export line is written back unchanged, so the new key is not saved. |
| `ShellProfile.RewriteExportsKey` | setup_gemini.py:61-74 | After the rewrite every export line exports the new key. The key is present exactly when the old profile did not mention the variable or already exported it. |
| `ShellProfile.RewriteMentions` | setup_gemini.py:61-74 | The rewritten profile still mentions `GEMINI_API_KEY`. |
| `ShellProfile.RewriteIdempotent` | setup_gemini.py:61-74 | Rewriting twice with the same key gives the same profile as rewriting once, in both branches. |
| `ShellProfile.NoMentionNoExport` | setup_gemini.py:62-67 | A profile that does not mention the variable has no export line. |
| `ShellProfile.Setup` | setup_gemini.py:16-74 | When the setup writes, the key is the stripped pasted line, is non-empty and contains no newline. The profile written is the rewrite with that key. |
| `ShellProfile.SetupWritesIff` | setup_gemini.py:16-47 | The setup writes exactly when three things hold: no key was set or the update was confirmed; the pasted line has a non-whitespace character; and the key starts with `AIza` or the warning was overridden with `y`. |
| `ShellProfile.SetupTwice` | setup_gemini.py:16-78 | Answering a second run the same way leaves the profile as the first run wrote it. |

## Left out

- The rest of `JSONViewer` is not modelled. That is `handleGetLaws` (static/js/script.js:36-93), which fetches the document from `/api/get-laws` and decodes it with `response.json()`, and the rest of `displayJSON` (95-109) around the `formatJSON` call, which shows the viewer and assigns the markup to `innerHTML`. It is also `showError` (177-181), `copyToClipboard` (183-202), `downloadJSON` (204-218) and `clearViewer` (220-225). These are network, clipboard, file download and page-visibility I/O.
- Cosmetic DOM effects are not modelled: the input's border radius, `scrollIntoView`, and the `selected` class added and removed by a 300 ms timer. The selected-state text and its display style are also left out, because they only mirror `selectedStateData`.
- `blur()` after Escape and `focus()` after clearing are focus changes. The focus listener's effect is the `FocusInput` event.
- `Text.Lower`: `toLowerCase` and Python's `lower` are modelled on ASCII letters only; full Unicode case mapping is not modelled. For the `y`/`n` prompts this is exact, because no other character lower-cases to `y`.
- `Sorting.Sort`: `localeCompare` is modelled as code-point lexicographic order. Locale collation (accents, case folding) is not modelled. The two orders differ on accented and mixed-case names, so the model's order can differ from the browser's there.
- `JsonFormat.Format`: numbers are integers. Floating-point numbers, exponents, `NaN` and `Infinity` have JavaScript number-to-string rules that are not modelled. The `String(obj)` fallback for values a decoded JSON response never holds (functions, `undefined`) is also left out.
- `JsonFormat.IntText`: prints every decimal digit of the integer. JavaScript does so only for magnitudes up to 2^53: above that it prints the shortest decimal that reads back as the same double (2^60 prints as `1152921504606847000`), and from 10^21 on it switches to exponent form (`1e+21`). The model is faithful only for |n| ≤ 2^53, and `JsonParse.IntRoundTrip` and `JsonParse.RoundTrip` hold for the model's rendering, not for JavaScript's beyond that range.
- Object member order is the order of `Object.keys`. That puts integer-like keys first, in ascending numeric order, and then the other keys in insertion order, whatever built the object. The model renders members in the order given and does not compute that order.
- `setup_gemini.py`: `os.getenv`, `input`, `webbrowser.open`, the file read and write, `os.environ` and the API test call are I/O. Their values are parameters of `Setup` (the environment value, the answers, the pasted line and the old profile text). Opening the browser has no effect on the result, and the test call after writing is not part of the model.
- `ShellProfile.Setup`: requires the pasted line to contain no newline, because `input()` returns one line.
- app.py, run.py and test_gemini.py (the Flask server and chatbot) are not part of this model.

=== FILE: json_format.dfy ===
/**
 `JSONViewer.formatJSON` and `JSONViewer.escapeHtml` (static/js/script.js):
 a JSON value is rendered as indented markup in which every token is wrapped
 in a `<span>` whose class names its kind. `escapeHtml` assigns the text to a
 detached element's `textContent` and reads back `innerHTML`; that read-back
 is the "escaping a string" step of HTML fragment serialization (WHATWG HTML
 Living Standard, section 13.3, not in attribute mode).
 */
module JsonFormat {
  import opened Text

  /** A parsed JSON document. Objects keep their keys in `Object.keys` order. */
  datatype Json =
    | Null
    | Bool(b: bool)
    | Number(n: int)
    | Str(s: string)
    | Array(elems: seq<Json>)
    | Object(members: seq<Member>)

  datatype Member = Member(key: string, value: Json)

  // ---------------------------------------------------------------------------
  // escapeHtml

  const AmpEntity: string := "&amp;"
  const LtEntity: string := "&lt;"
  const GtEntity: string := "&gt;"
  const NbspEntity: string := "&nbsp;"

  /** Each character of text content as the serializer writes it. */
  function EscapeChar(c: char): string {
    if c == '&' then AmpEntity
    else if c == '\U{00A0}' then NbspEntity
    else if c == '<' then LtEntity
    else if c == '>' then GtEntity
    else [c]
  }

  /** The serializer emits an `&` only as the start of one of its four entities. */
  ghost predicate EntityAt(t: string, i: int)
    requires 0 <= i <= |t|
  {
    StartsWith(t[i..], AmpEntity) || StartsWith(t[i..], LtEntity) ||
    StartsWith(t[i..], GtEntity) || StartsWith(t[i..], NbspEntity)
  }

  /** Markup-safe text: no `<`, `>` or no-break space survives, and every `&`
      opens an entity, so the text cannot open a tag or change a character
      reference when placed between tags. */
  ghost predicate EscapedText(t: string) {
    && (forall i :: 0 <= i < |t| ==> t[i] != '<' && t[i] != '>' && t[i] != '\U{00A0}')
    && (forall i :: 0 <= i < |t| && t[i] == '&' ==> EntityAt(t, i))
  }

  /** `escapeHtml(text)`. Quotes are left as they are. */
  function Escape(s: string): (r: string)
    ensures EscapedText(r)
    ensures |r| >= |s|
    decreases |s|
  {
    if |s| == 0 then []
    else
      var head := EscapeChar(s[0]);
      var tail := Escape(s[1..]);
      EscapedAppend(s[0], tail);
      head + tail
  }

  lemma EscapedAppend(c: char, tail: string)
    requires EscapedText(tail)
    ensures EscapedText(EscapeChar(c) + tail)
  {
    var head := EscapeChar(c);
    var t := head + tail;
    forall i | 0 <= i < |t| && t[i] == '&'
      ensures EntityAt(t, i)
    {
      if i >= |head| {
        assert t[i..] == tail[i - |head|..];
        assert EntityAt(tail, i - |head|);
      } else {
        assert t[i..] == head[i..] + tail;
        assert i == 0;
      }
    }
  }

  /** Reverses `Escape`: the four entities become their characters again. */
  function Unescape(t: string): string
    decreases |t|
  {
    if |t| == 0 then []
    else if StartsWith(t, AmpEntity) then "&" + Unescape(t[|AmpEntity|..])
    else if StartsWith(t, LtEntity) then "<" + Unescape(t[|LtEntity|..])
    else if StartsWith(t, GtEntity) then ">" + Unescape(t[|GtEntity|..])
    else if StartsWith(t, NbspEntity) then "\U{00A0}" + Unescape(t[|NbspEntity|..])
    else [t[0]] + Unescape(t[1..])
  }

  /** A text that differs from `p` at position `i` does not start with `p`. */
  lemma DiffersAt(t: string, p: string, i: nat)
    requires i < |t| && i < |p| && t[i] != p[i]
    ensures !StartsWith(t, p)
  {
  }

  /** Unescaping undoes the escape of one character. */
  lemma UnescapeChar(c: char, rest: string)
    ensures Unescape(EscapeChar(c) + rest) == [c] + Unescape(rest)
  {
    var t := EscapeChar(c) + rest;
    assert t[|EscapeChar(c)|..] == rest;
    if c != '&' && c != '<' && c != '>' && c != '\U{00A0}' {
      assert t[0] == c;
      assert !StartsWith(t, AmpEntity) && !StartsWith(t, LtEntity);
      assert !StartsWith(t, GtEntity) && !StartsWith(t, NbspEntity);
    } else if c == '&' {
      assert StartsWith(t, AmpEntity);
    } else if c == '<' {
      assert t[1] == 'l';
      DiffersAt(t, AmpEntity, 1);
    } else if c == '>' {
      assert t[1] == 'g';
      DiffersAt(t, AmpEntity, 1);
      DiffersAt(t, LtEntity, 1);
    } else {
      assert t[1] == 'n';
      DiffersAt(t, AmpEntity, 1);
      DiffersAt(t, LtEntity, 1);
      DiffersAt(t, GtEntity, 1);
    }
  }

  /** Escaping loses nothing: unescaping gives the original text back. */
  lemma {:induction false} EscapeRoundTrip(s: string)
    ensures Unescape(Escape(s)) == s
    decreases |s|
  {
    if |s| > 0 {
      UnescapeChar(s[0], Escape(s[1..]));
      EscapeRoundTrip(s[1..]);
      assert s == [s[0]] + s[1..];
    }
  }

  // ---------------------------------------------------------------------------
  // Number and string literals

  function DigitChar(d: nat): char
    requires d < 10
  {
    ('0' as int + d) as char
  }

  /** Decimal digits of `n`, most significant first, without leading zeros. */
  function NatText(n: nat): (r: string)
    ensures |r| > 0
    ensures forall i :: 0 <= i < |r| ==> '0' <= r[i] <= '9'
    ensures r[0] == '0' <==> n == 0
    ensures n == 0 ==> r == "0"
    decreases n
  {
    if n < 10 then [DigitChar(n)] else NatText(n / 10) + [DigitChar(n % 10)]
  }

  /** `${obj}` for an integer-valued number of magnitude at most 2^53, the range in which
      JavaScript prints every digit exactly: optional minus sign, then decimal digits. */
  function IntText(n: int): (r: string)
    ensures |r| > 0
    ensures forall i :: 0 <= i < |r| ==> '0' <= r[i] <= '9' || (i == 0 && r[i] == '-')
    ensures r[0] == '-' <==> n < 0
    ensures n == 0 ==> r == "0"
    ensures n > 0 ==> r[0] != '0'
    ensures n < 0 ==> |r| >= 2 && r[1] != '0'
  {
    if n < 0 then "-" + NatText(-n) else NatText(n)
  }

  /** `"` + `escapeHtml(text)` + `"`. */
  function Quoted(text: string): string {
    "\"" + Escape(text) + "\""
  }

  // ---------------------------------------------------------------------------
  // formatJSON

  /** `<span class="cls">text</span>`. */
  function Span(cls: string, text: string): string {
    "<span class=\"" + cls + "\">" + text + "</span>"
  }

  const NullClass: string := "json-null"
  const StringClass: string := "json-string"
  const NumberClass: string := "json-number"
  const BooleanClass: string := "json-boolean"
  const PunctClass: string := "json-punctuation"
  const KeyClass: string := "json-key"

  function Punct(text: string): string {
    Span(PunctClass, text)
  }

  /** `'  '.repeat(indent)`. */
  function Indent(indent: nat): (r: string)
    ensures |r| == 2 * indent
    ensures forall i :: 0 <= i < |r| ==> r[i] == ' '
  {
    if indent == 0 then [] else "  " + Indent(indent - 1)
  }

  /** The comma span that follows every child but the last. */
  function Separator(index: nat, count: nat): string {
    if index < count - 1 then Punct(",") else []
  }

  /** `formatJSON(obj, indent)`. */
  function Format(v: Json, indent: nat): string
    decreases v, 1
  {
    match v
    case Null => Span(NullClass, "null")
    case Str(s) => Span(StringClass, Quoted(s))
    case Number(n) => Span(NumberClass, IntText(n))
    case Bool(b) => Span(BooleanClass, if b then "true" else "false")
    case Array(es) =>
      if |es| == 0 then Punct("[]")
      else Punct("[") + "\n" + ElementLines(es, indent) + Indent(indent) + Punct("]")
    case Object(ms) =>
      if |ms| == 0 then Punct("{}")
      else Punct("{") + "\n" + MemberLines(ms, indent) + Indent(indent) + Punct("}")
  }

  /** The `forEach` over an array's elements: one line per element, each
      followed by a comma span unless it is the last. */
  function ElementLines(es: seq<Json>, indent: nat): string
    decreases es, 0
  {
    if |es| == 0 then []
    else
      Indent(indent + 1) + Format(es[0], indent + 1) + Separator(0, |es|) + "\n"
      + ElementLines(es[1..], indent)
  }

  /** The `forEach` over an object's keys: `"key": value` per line. */
  function MemberLines(ms: seq<Member>, indent: nat): string
    decreases ms, 0
  {
    if |ms| == 0 then []
    else
      Indent(indent + 1) + MemberText(ms[0], indent) + Separator(0, |ms|) + "\n"
      + MemberLines(ms[1..], indent)
  }

  /** One member without its indentation: key span, `: ` span, value. */
  function MemberText(m: Member, indent: nat): string
    decreases m, 0
  {
    Span(KeyClass, Quoted(m.key)) + Punct(": ") + Format(m.value, indent + 1)
  }

  // ---------------------------------------------------------------------------
  // Layout

  function Concat(ss: seq<string>): string {
    if |ss| == 0 then [] else ss[0] + Concat(ss[1..])
  }

  /** Line `i` of an array's body as the `forEach` callback writes it. */
  function ElementLine(es: seq<Json>, indent: nat, i: nat): string
    requires i < |es|
  {
    Indent(indent + 1) + Format(es[i], indent + 1) + Separator(i, |es|) + "\n"
  }

  /** Line `i` of an object's body as the `forEach` callback writes it. */
  function MemberLine(ms: seq<Member>, indent: nat, i: nat): string
    requires i < |ms|
  {
    Indent(indent + 1) + MemberText(ms[i], indent) + Separator(i, |ms|) + "\n"
  }

  lemma ElementLinesStep(es: seq<Json>, indent: nat, k: nat)
    requires k < |es|
    ensures ElementLines(es[k..], indent) == ElementLine(es, indent, k) + ElementLines(es[k + 1..], indent)
  {
    var t := es[k..];
    assert t[0] == es[k] && t[1..] == es[k + 1..];
    assert Separator(0, |t|) == Separator(k, |es|);
  }

  lemma MemberLinesStep(ms: seq<Member>, indent: nat, k: nat)
    requires k < |ms|
    ensures MemberLines(ms[k..], indent) == MemberLine(ms, indent, k) + MemberLines(ms[k + 1..], indent)
  {
    var t := ms[k..];
    assert t[0] == ms[k] && t[1..] == ms[k + 1..];
    assert Separator(0, |t|) == Separator(k, |ms|);
  }

  /** All lines of an array's body, in order. */
  function ElementLineSeq(es: seq<Json>, indent: nat): (r: seq<string>)
    ensures |r| == |es|
  {
    seq(|es|, i requires 0 <= i < |es| => ElementLine(es, indent, i))
  }

  /** All lines of an object's body, in order. */
  function MemberLineSeq(ms: seq<Member>, indent: nat): (r: seq<string>)
    ensures |r| == |ms|
  {
    seq(|ms|, i requires 0 <= i < |ms| => MemberLine(ms, indent, i))
  }

  lemma {:induction false} ElementLinesIndexed(es: seq<Json>, indent: nat, k: nat)
    requires k <= |es|
    ensures ElementLines(es[k..], indent) == Concat(ElementLineSeq(es, indent)[k..])
    decreases |es| - k
  {
    var ss := ElementLineSeq(es, indent);
    if k < |es| {
      ElementLinesIndexed(es, indent, k + 1);
      ElementLinesStep(es, indent, k);
      assert ss[k..][1..] == ss[k + 1..];
    }
  }

  lemma {:induction false} MemberLinesIndexed(ms: seq<Member>, indent: nat, k: nat)
    requires k <= |ms|
    ensures MemberLines(ms[k..], indent) == Concat(MemberLineSeq(ms, indent)[k..])
    decreases |ms| - k
  {
    var ss := MemberLineSeq(ms, indent);
    if k < |ms| {
      MemberLinesIndexed(ms, indent, k + 1);
      MemberLinesStep(ms, indent, k);
      assert ss[k..][1..] == ss[k + 1..];
    }
  }

  /** An empty array is one compact punctuation span; a non-empty one is the
      opening bracket, then one line per element, indented by 2*(indent+1)
      spaces and ended by a comma span exactly when it is not the last element
      (so n-1 commas for n elements), then the closing bracket indented by
      2*indent spaces. */
  lemma ArrayLayout(es: seq<Json>, indent: nat)
    ensures |es| == 0 ==> Format(Array(es), indent) == Punct("[]")
    ensures |es| > 0 ==>
      Format(Array(es), indent) ==
        Punct("[") + "\n"
        + Concat(seq(|es|, i requires 0 <= i < |es| =>
            Indent(indent + 1) + Format(es[i], indent + 1)
            + (if i < |es| - 1 then Punct(",") else []) + "\n"))
        + Indent(indent) + Punct("]")
  {
    if |es| > 0 {
      ElementLinesIndexed(es, indent, 0);
      assert es[0..] == es;
      var a := ElementLineSeq(es, indent);
      assert a[0..] == a;
      var b := seq(|es|, i requires 0 <= i < |es| =>
            Indent(indent + 1) + Format(es[i], indent + 1)
            + (if i < |es| - 1 then Punct(",") else []) + "\n");
      assert forall i :: 0 <= i < |es| ==> a[i] == b[i];
      assert a == b;
    }
  }

  /** Member line `i` written out. */
  function MemberLineExplicit(ms: seq<Member>, indent: nat, i: nat): string
    requires i < |ms|
  {
    Indent(indent + 1)
    + Span(KeyClass, "\"" + Escape(ms[i].key) + "\"") + Punct(": ")
    + Format(ms[i].value, indent + 1)
    + (if i < |ms| - 1 then Punct(",") else []) + "\n"
  }

  /** Member line `i` is its written-out form. */
  lemma MemberLineIsExplicit(ms: seq<Member>, indent: nat, i: nat)
    requires i < |ms|
    ensures MemberLine(ms, indent, i) == MemberLineExplicit(ms, indent, i)
  {
    var n, k, p := Indent(indent + 1), Span(KeyClass, Quoted(ms[i].key)), Punct(": ");
    var f, c := Format(ms[i].value, indent + 1), Separator(i, |ms|);
    assert MemberText(ms[i], indent) == k + p + f;
    assert n + (k + p + f) + c + "\n" == n + k + p + f + c + "\n";
  }

  lemma MemberLineSeqExplicit(ms: seq<Member>, indent: nat)
    ensures MemberLineSeq(ms, indent) ==
      seq(|ms|, i requires 0 <= i < |ms| => MemberLineExplicit(ms, indent, i))
  {
    var a := MemberLineSeq(ms, indent);
    var b := seq(|ms|, i requires 0 <= i < |ms| => MemberLineExplicit(ms, indent, i));
    forall i | 0 <= i < |ms|
      ensures a[i] == b[i]
    {
      MemberLineIsExplicit(ms, indent, i);
    }
  }

  /** The object counterpart of `ArrayLayout`: each member line is the quoted,
      escaped key span, the `: ` span and the value. */
  lemma ObjectLayout(ms: seq<Member>, indent: nat)
    ensures |ms| == 0 ==> Format(Object(ms), indent) == Punct("{}")
    ensures |ms| > 0 ==>
      Format(Object(ms), indent) ==
        Punct("{") + "\n"
        + Concat(seq(|ms|, i requires 0 <= i < |ms| => MemberLineExplicit(ms, indent, i)))
        + Indent(indent) + Punct("}")
  {
    if |ms| > 0 {
      MemberLinesIndexed(ms, indent, 0);
      assert ms[0..] == ms;
      var a := MemberLineSeq(ms, indent);
      assert a[0..] == a;
      MemberLineSeqExplicit(ms, indent);
    }
  }

  // ---------------------------------------------------------------------------
  // No markup injection

  const TagOpen: string := "<span class=\"json-"
  const TagClose: string := "</span>"

  /** Every `<` in `t` begins one of the formatter's own tags: a `span` whose
      class is one of the `json-` classes, or a closing `</span>`. */
  ghost predicate OnlyOwnTags(t: string) {
    forall i :: 0 <= i < |t| && t[i] == '<' ==> StartsWith(t[i..], TagOpen) || StartsWith(t[i..], TagClose)
  }

  lemma OnlyOwnTagsAppend(a: string, b: string)
    requires OnlyOwnTags(a) && OnlyOwnTags(b)
    ensures OnlyOwnTags(a + b)
  {
    var t := a + b;
    forall i | 0 <= i < |t| && t[i] == '<'
      ensures StartsWith(t[i..], TagOpen) || StartsWith(t[i..], TagClose)
    {
      if i < |a| {
        assert t[i..] == a[i..] + b;
        assert a[i] == '<';
      } else {
        assert t[i..] == b[i - |a|..];
        assert b[i - |a|] == '<';
      }
    }
  }

  lemma OnlyOwnTagsSpan(cls: string, text: string)
    requires StartsWith(cls, "json-") && '<' !in cls && '<' !in text
    ensures OnlyOwnTags(Span(cls, text))
  {
    var head := "<span class=\"" + cls + "\">";
    assert head[0..] == "<span class=\"" + cls + "\">";
    assert head[..|TagOpen|] == TagOpen;
    assert OnlyOwnTags(head) by {
      forall i | 0 <= i < |head| && head[i] == '<'
        ensures StartsWith(head[i..], TagOpen)
      {
      }
    }
    assert OnlyOwnTags(text);
    assert OnlyOwnTags(TagClose) by {
      assert forall i :: 0 < i < |TagClose| ==> TagClose[i] != '<';
      assert TagClose[0..] == TagClose;
    }
    OnlyOwnTagsAppend(head, text);
    OnlyOwnTagsAppend(head + text, TagClose);
  }


  lemma QuotedNoLt(text: string)
    ensures '<' !in Quoted(text)
  {
    var e := Escape(text);
    assert forall i :: 0 <= i < |e| ==> e[i] != '<';
  }

  /** Whatever the strings and keys of the document hold, the rendered markup
      contains no tag but the formatter's own spans. */
  lemma {:induction false} FormatOnlyOwnTags(v: Json, indent: nat)
    ensures OnlyOwnTags(Format(v, indent))
    decreases v, 1
  {
    match v
    case Null => OnlyOwnTagsSpan(NullClass, "null");
    case Bool(b) => OnlyOwnTagsSpan(BooleanClass, if b then "true" else "false");
    case Number(n) =>
      assert '<' !in IntText(n) by {
        var t := IntText(n);
        assert forall i :: 0 <= i < |t| ==> t[i] != '<';
      }
      OnlyOwnTagsSpan(NumberClass, IntText(n));
    case Str(s) =>
      QuotedNoLt(s);
      OnlyOwnTagsSpan(StringClass, Quoted(s));
    case Array(es) =>
      if |es| == 0 {
        OnlyOwnTagsSpan(PunctClass, "[]");
      } else {
        OnlyOwnTagsSpan(PunctClass, "[");
        OnlyOwnTagsSpan(PunctClass, "]");
        ElementLinesOnlyOwnTags(es, indent);
        OnlyOwnTagsAppend(Punct("["), "\n");
        OnlyOwnTagsAppend(Punct("[") + "\n", ElementLines(es, indent));
        OnlyOwnTagsAppend(Punct("[") + "\n" + ElementLines(es, indent), Indent(indent));
        OnlyOwnTagsAppend(Punct("[") + "\n" + ElementLines(es, indent) + Indent(indent), Punct("]"));
      }
    case Object(ms) =>
      if |ms| == 0 {
        OnlyOwnTagsSpan(PunctClass, "{}");
      } else {
        OnlyOwnTagsSpan(PunctClass, "{");
        OnlyOwnTagsSpan(PunctClass, "}");
        MemberLinesOnlyOwnTags(ms, indent);
        OnlyOwnTagsAppend(Punct("{"), "\n");
        OnlyOwnTagsAppend(Punct("{") + "\n", MemberLines(ms, indent));
        OnlyOwnTagsAppend(Punct("{") + "\n" + MemberLines(ms, indent), Indent(indent));
        OnlyOwnTagsAppend(Punct("{") + "\n" + MemberLines(ms, indent) + Indent(indent), Punct("}"));
      }
  }

  lemma SeparatorOnlyOwnTags(i: nat, n: nat)
    ensures OnlyOwnTags(Separator(i, n) + "\n")
  {
    OnlyOwnTagsSpan(PunctClass, ",");
    OnlyOwnTagsAppend(Separator(i, n), "\n");
  }

  lemma {:induction false} ElementLinesOnlyOwnTags(es: seq<Json>, indent: nat)
    ensures OnlyOwnTags(ElementLines(es, indent))
    decreases es, 0
  {
    if |es| > 0 {
      FormatOnlyOwnTags(es[0], indent + 1);
      ElementLinesOnlyOwnTags(es[1..], indent);
      SeparatorOnlyOwnTags(0, |es|);
      var a := Indent(indent + 1);
      var b := Format(es[0], indent + 1);
      var c := Separator(0, |es|) + "\n";
      OnlyOwnTagsAppend(a, b);
      OnlyOwnTagsAppend(a + b, c);
      assert a + b + Separator(0, |es|) + "\n" == (a + b) + c;
      OnlyOwnTagsAppend((a + b) + c, ElementLines(es[1..], indent));
    }
  }

  lemma {:induction false} MemberLinesOnlyOwnTags(ms: seq<Member>, indent: nat)
    ensures OnlyOwnTags(MemberLines(ms, indent))
    decreases ms, 0
  {
    if |ms| > 0 {
      MemberTextOnlyOwnTags(ms[0], indent);
      MemberLinesOnlyOwnTags(ms[1..], indent);
      SeparatorOnlyOwnTags(0, |ms|);
      var a := Indent(indent + 1);
      var b := MemberText(ms[0], indent);
      var c := Separator(0, |ms|) + "\n";
      OnlyOwnTagsAppend(a, b);
      OnlyOwnTagsAppend(a + b, c);
      assert a + b + Separator(0, |ms|) + "\n" == (a + b) + c;
      OnlyOwnTagsAppend((a + b) + c, MemberLines(ms[1..], indent));
    }
  }

  lemma {:induction false} MemberTextOnlyOwnTags(m: Member, indent: nat)
    ensures OnlyOwnTags(MemberText(m, indent))
    decreases m, 0
  {
    QuotedNoLt(m.key);
    OnlyOwnTagsSpan(KeyClass, Quoted(m.key));
    OnlyOwnTagsSpan(PunctClass, ": ");
    FormatOnlyOwnTags(m.value, indent + 1);
    OnlyOwnTagsAppend(Span(KeyClass, Quoted(m.key)), Punct(": "));
    OnlyOwnTagsAppend(Span(KeyClass, Quoted(m.key)) + Punct(": "), Format(m.value, indent + 1));
  }
}

=== FILE: json_parse.dfy ===
/**
 A reader for the markup `formatJSON` writes. It strips the spans, undoes the
 escaping and rebuilds the JSON value, so that reading back a rendering is the
 identity: the rendering shows the document completely and unambiguously.
 */
module JsonParse {
  import opened Wrappers
  import opened Text
  import opened JsonFormat

  /** The rest of `s` after the prefix `p`, if `s` starts with it. */
  function Consume(s: string, p: string): (r: Option<string>)
    ensures r.Some? ==> |r.value| == |s| - |p| && s == p + r.value
  {
    if StartsWith(s, p) then
      assert s == p + s[|p|..];
      Some(s[|p|..])
    else None
  }

  /** Splits `s` before the first `stop` character. */
  function TakeUntil(s: string, stop: char): (r: (string, string))
    ensures r.0 + r.1 == s
    ensures stop !in r.0
    ensures r.1 == [] || r.1[0] == stop
    decreases |s|
  {
    if |s| == 0 || s[0] == stop then ([], s)
    else
      var (a, b) := TakeUntil(s[1..], stop);
      assert s == [s[0]] + (a + b);
      assert stop !in [s[0]] + a;
      ([s[0]] + a, b)
  }

  /** Drops leading spaces (the indentation). */
  function SkipSpaces(s: string): (r: string)
    ensures |r| <= |s|
    decreases |s|
  {
    if |s| > 0 && s[0] == ' ' then SkipSpaces(s[1..]) else s
  }

  function DigitValue(c: char): int {
    c as int - '0' as int
  }

  predicate AllDigits(t: string) {
    forall i :: 0 <= i < |t| ==> '0' <= t[i] <= '9'
  }

  /** The number a string of decimal digits denotes. */
  function DigitsValue(t: string): nat
    requires AllDigits(t)
    decreases |t|
  {
    if |t| == 0 then 0 else DigitsValue(t[..|t| - 1]) * 10 + DigitValue(t[|t| - 1])
  }

  /** Reads an optionally signed decimal integer. */
  function ParseInt(t: string): Option<int> {
    if |t| > 0 && t[0] == '-' then
      if |t| > 1 && AllDigits(t[1..]) then
        var magnitude: int := DigitsValue(t[1..]);
        Some(-magnitude)
      else None
    else if |t| > 0 && AllDigits(t) then Some(DigitsValue(t))
    else None
  }

  /** `<span class="` cls `">`: the class and what follows the tag. */
  function ParseSpanStart(s: string): (r: Option<(string, string)>)
    ensures r.Some? ==> |r.value.1| < |s|
  {
    match Consume(s, "<span class=\"")
    case None => None
    case Some(s1) =>
      var (cls, s2) := TakeUntil(s1, '"');
      match Consume(s2, "\">")
      case None => None
      case Some(body) => Some((cls, body))
  }

  /** The text up to the next tag, which must be `</span>`; and what follows it. */
  function ParseSpanText(s: string): (r: Option<(string, string)>)
    ensures r.Some? ==> |r.value.1| < |s|
  {
    var (t, s1) := TakeUntil(s, '<');
    match Consume(s1, TagClose)
    case None => None
    case Some(rest) => Some((t, rest))
  }

  /** The text of a string or key span: `"` escaped-text `"`. */
  function Unquote(t: string): Option<string> {
    if |t| >= 2 && t[0] == '"' && t[|t| - 1] == '"' then Some(Unescape(t[1..|t| - 1])) else None
  }

  /** The scalar a non-punctuation span of class `cls` with text `t` denotes. */
  function Scalar(cls: string, t: string): Option<Json> {
    if cls == NullClass then
      if t == "null" then Some(Null) else None
    else if cls == BooleanClass then
      if t == "true" then Some(Bool(true))
      else if t == "false" then Some(Bool(false))
      else None
    else if cls == NumberClass then
      match ParseInt(t)
      case None => None
      case Some(n) => Some(Number(n))
    else if cls == StringClass then
      match Unquote(t)
      case None => None
      case Some(str) => Some(Str(str))
    else None
  }

  /** Reads one rendered value; returns it and the text after it. */
  function ParseValue(s: string): (r: Option<(Json, string)>)
    ensures r.Some? ==> |r.value.1| < |s|
    decreases |s|, 0
  {
    match ParseSpanStart(s)
    case None => None
    case Some((cls, body)) =>
      match ParseSpanText(body)
      case None => None
      case Some((t, rest)) => Interpret(cls, t, rest)
  }

  /** The value a span of class `cls` and text `t` opens, read on from `rest`
      when it is an opening bracket. */
  function Interpret(cls: string, t: string, rest: string): (r: Option<(Json, string)>)
    ensures r.Some? ==> |r.value.1| <= |rest|
    decreases |rest|, 2
  {
    if cls != PunctClass then
      match Scalar(cls, t)
      case None => None
      case Some(v) => Some((v, rest))
    else if t == "[]" then Some((Array([]), rest))
    else if t == "{}" then Some((Object([]), rest))
    else if t == "[" then
      match Consume(rest, "\n")
      case None => None
      case Some(lines) =>
        match ParseElements(lines)
        case None => None
        case Some((es, after)) => Some((Array(es), after))
    else if t == "{" then
      match Consume(rest, "\n")
      case None => None
      case Some(lines) =>
        match ParseMembers(lines)
        case None => None
        case Some((ms, after)) => Some((Object(ms), after))
    else None
  }

  /** After one child: a comma line continues the list; otherwise a newline,
      the indentation and the closing bracket `close` end it. */
  function ParseListEnd(s: string, close: string): (r: Option<(bool, string)>)
    ensures r.Some? ==> |r.value.1| < |s|
  {
    match Consume(s, Punct(",") + "\n")
    case Some(next) => Some((true, next))
    case None =>
      match Consume(s, "\n")
      case None => None
      case Some(s1) =>
        match Consume(SkipSpaces(s1), Punct(close))
        case None => None
        case Some(after) => Some((false, after))
  }

  /** Reads the element lines of a non-empty array and its closing bracket. */
  function ParseElements(s: string): (r: Option<(seq<Json>, string)>)
    ensures r.Some? ==> |r.value.1| < |s|
    decreases |s|, 1
  {
    match ParseValue(SkipSpaces(s))
    case None => None
    case Some((v, s1)) =>
      match ParseListEnd(s1, "]")
      case None => None
      case Some((more, s2)) =>
        if !more then Some(([v], s2))
        else
          match ParseElements(s2)
          case None => None
          case Some((vs, after)) => Some(([v] + vs, after))
  }

  /** Reads one `"key": value` line body. */
  function ParseMember(s: string): (r: Option<(Member, string)>)
    ensures r.Some? ==> |r.value.1| < |s|
    decreases |s|, 0
  {
    match ParseSpanStart(s)
    case None => None
    case Some((cls, body)) =>
      if cls != KeyClass then None
      else
        match ParseSpanText(body)
        case None => None
        case Some((t, s1)) =>
          match Unquote(t)
          case None => None
          case Some(key) =>
            match Consume(s1, Punct(": "))
            case None => None
            case Some(s2) =>
              match ParseValue(s2)
              case None => None
              case Some((v, after)) => Some((Member(key, v), after))
  }

  /** Reads the member lines of a non-empty object and its closing brace. */
  function ParseMembers(s: string): (r: Option<(seq<Member>, string)>)
    ensures r.Some? ==> |r.value.1| < |s|
    decreases |s|, 1
  {
    match ParseMember(SkipSpaces(s))
    case None => None
    case Some((m, s1)) =>
      match ParseListEnd(s1, "}")
      case None => None
      case Some((more, s2)) =>
        if !more then Some(([m], s2))
        else
          match ParseMembers(s2)
          case None => None
          case Some((ms, after)) => Some(([m] + ms, after))
  }

  /** Reads a complete rendering. */
  function Parse(s: string): Option<Json> {
    match ParseValue(s)
    case Some((v, rest)) => if rest == [] then Some(v) else None
    case None => None
  }

  // ---------------------------------------------------------------------------
  // Reading back a rendering

  lemma ConsumePrefix(p: string, rest: string)
    ensures Consume(p + rest, p) == Some(rest)
  {
    assert (p + rest)[..|p|] == p;
    assert (p + rest)[|p|..] == rest;
  }

  lemma {:induction false} TakeUntilPrefix(a: string, stop: char, b: string)
    requires stop !in a && (b == [] || b[0] == stop)
    ensures TakeUntil(a + b, stop) == (a, b)
    decreases |a|
  {
    if |a| == 0 {
      assert a + b == b;
    } else {
      assert (a + b)[0] == a[0];
      assert (a + b)[1..] == a[1..] + b;
      TakeUntilPrefix(a[1..], stop, b);
      assert a == [a[0]] + a[1..];
    }
  }

  lemma {:induction false} SkipSpacesPrefix(sp: string, x: string)
    requires forall i :: 0 <= i < |sp| ==> sp[i] == ' '
    requires x == [] || x[0] != ' '
    ensures SkipSpaces(sp + x) == x
    decreases |sp|
  {
    if |sp| == 0 {
      assert sp + x == x;
    } else {
      assert (sp + x)[1..] == sp[1..] + x;
      SkipSpacesPrefix(sp[1..], x);
    }
  }

  lemma {:induction false} DigitsRoundTrip(n: nat)
    ensures DigitsValue(NatText(n)) == n
    decreases n
  {
    if n >= 10 {
      var t := NatText(n);
      DigitsRoundTrip(n / 10);
      assert t[..|t| - 1] == NatText(n / 10);
    }
  }

  /** Reading a rendered integer gives the integer. */
  lemma IntRoundTrip(n: int)
    ensures ParseInt(IntText(n)) == Some(n)
  {
    var t := IntText(n);
    if n < 0 {
      var d := NatText(-n);
      assert t == "-" + d;
      assert t[1..] == d;
      assert AllDigits(d);
      DigitsRoundTrip(-n);
    } else {
      assert t == NatText(n);
      assert t[0] != '-';
      DigitsRoundTrip(n);
    }
  }

  lemma UnquoteQuoted(text: string)
    ensures Unquote(Quoted(text)) == Some(text)
  {
    var q := Quoted(text);
    assert q[1..|q| - 1] == Escape(text);
    EscapeRoundTrip(text);
  }

  /** A span's tags read back around its class and text, when the class holds
      no `"` and the text no `<`. */
  lemma SpanParts(cls: string, text: string, rest: string)
    requires '"' !in cls && '<' !in text
    ensures ParseSpanStart(Span(cls, text) + rest) == Some((cls, text + (TagClose + rest)))
    ensures ParseSpanText(text + (TagClose + rest)) == Some((text, rest))
  {
    var body := text + (TagClose + rest);
    var s1 := cls + ("\">" + body);
    assert Span(cls, text) + rest == "<span class=\"" + s1;
    ConsumePrefix("<span class=\"", s1);
    TakeUntilPrefix(cls, '"', "\">" + body);
    ConsumePrefix("\">", body);
    TakeUntilPrefix(text, '<', TagClose + rest);
    ConsumePrefix(TagClose, rest);
  }

  /** A span reads back as its class and text. */
  lemma SpanRead(cls: string, text: string, rest: string)
    requires '"' !in cls && '<' !in text
    ensures ParseValue(Span(cls, text) + rest) == Interpret(cls, text, rest)
  {
    SpanParts(cls, text, rest);
  }

  lemma ElementsLast(s: string, v: Json, s1: string, s2: string)
    requires ParseValue(SkipSpaces(s)) == Some((v, s1))
    requires ParseListEnd(s1, "]") == Some((false, s2))
    ensures ParseElements(s) == Some(([v], s2))
  {
  }

  lemma ElementsMore(s: string, v: Json, s1: string, s2: string, vs: seq<Json>, after: string)
    requires ParseValue(SkipSpaces(s)) == Some((v, s1))
    requires ParseListEnd(s1, "]") == Some((true, s2))
    requires ParseElements(s2) == Some((vs, after))
    ensures ParseElements(s) == Some(([v] + vs, after))
  {
  }

  lemma MembersLast(s: string, m: Member, s1: string, s2: string)
    requires ParseMember(SkipSpaces(s)) == Some((m, s1))
    requires ParseListEnd(s1, "}") == Some((false, s2))
    ensures ParseMembers(s) == Some(([m], s2))
  {
  }

  lemma MembersMore(s: string, m: Member, s1: string, s2: string, ms: seq<Member>, after: string)
    requires ParseMember(SkipSpaces(s)) == Some((m, s1))
    requires ParseListEnd(s1, "}") == Some((true, s2))
    requires ParseMembers(s2) == Some((ms, after))
    ensures ParseMembers(s) == Some(([m] + ms, after))
  {
  }

  lemma MemberStep(s: string, body: string, t: string, s1: string, key: string, s2: string, v: Json, after: string)
    requires ParseSpanStart(s) == Some((KeyClass, body))
    requires ParseSpanText(body) == Some((t, s1))
    requires Unquote(t) == Some(key)
    requires Consume(s1, Punct(": ")) == Some(s2)
    requires ParseValue(s2) == Some((v, after))
    ensures ParseMember(s) == Some((Member(key, v), after))
  {
  }

  lemma FormatStartsWithTag(v: Json, indent: nat)
    ensures |Format(v, indent)| > 0 && Format(v, indent)[0] == '<'
  {
  }

  lemma ListEndMore(close: string, next: string)
    ensures ParseListEnd(Punct(",") + ("\n" + next), close) == Some((true, next))
  {
    assert Punct(",") + ("\n" + next) == (Punct(",") + "\n") + next;
    ConsumePrefix(Punct(",") + "\n", next);
  }

  lemma ListEndDone(close: string, indent: nat, rest: string)
    ensures ParseListEnd("\n" + (Indent(indent) + (Punct(close) + rest)), close) == Some((false, rest))
  {
    var s := "\n" + (Indent(indent) + (Punct(close) + rest));
    DiffersAt(s, Punct(",") + "\n", 0);
    ConsumePrefix("\n", Indent(indent) + (Punct(close) + rest));
    SkipSpacesPrefix(Indent(indent), Punct(close) + rest);
    ConsumePrefix(Punct(close), rest);
  }

  lemma IntTextNoLt(n: int)
    ensures '<' !in IntText(n)
  {
    var t := IntText(n);
    assert forall i :: 0 <= i < |t| ==> t[i] != '<';
  }

  lemma ElementLinesUnfold(es: seq<Json>, indent: nat, tail: string)
    requires |es| > 0
    ensures ElementLines(es, indent) + tail
         == Indent(indent + 1) + (Format(es[0], indent + 1) +
              (Separator(0, |es|) + ("\n" + (ElementLines(es[1..], indent) + tail))))
  {
  }

  lemma MemberLinesUnfold(ms: seq<Member>, indent: nat, tail: string)
    requires |ms| > 0
    ensures MemberLines(ms, indent) + tail
         == Indent(indent + 1) + (MemberText(ms[0], indent) +
              (Separator(0, |ms|) + ("\n" + (MemberLines(ms[1..], indent) + tail))))
  {
    var a, b, c, e := Indent(indent + 1), MemberText(ms[0], indent), Separator(0, |ms|), MemberLines(ms[1..], indent);
    assert a + b + c + "\n" + e + tail == a + (b + (c + ("\n" + (e + tail))));
  }

  lemma ReadScalar(v: Json, indent: nat, rest: string)
    requires !v.Array? && !v.Object?
    ensures ParseValue(Format(v, indent) + rest) == Some((v, rest))
  {
    match v
    case Null =>
      SpanRead(NullClass, "null", rest);
    case Bool(b) =>
      SpanRead(BooleanClass, if b then "true" else "false", rest);
    case Number(n) =>
      IntTextNoLt(n);
      SpanRead(NumberClass, IntText(n), rest);
      IntRoundTrip(n);
    case Str(str) =>
      QuotedNoLt(str);
      SpanRead(StringClass, Quoted(str), rest);
      UnquoteQuoted(str);
  }

  /** A bracketed rendering is its opening span, a newline and its remaining lines. */
  lemma OpenLines(open: string, close: string, children: string, indent: nat, rest: string)
    ensures Punct(open) + "\n" + children + Indent(indent) + Punct(close) + rest
         == Punct(open) + ("\n" + (children + (Indent(indent) + (Punct(close) + rest))))
  {
    var o, i, c := Punct(open), Indent(indent), Punct(close);
    assert o + "\n" + children + i + c + rest == o + ("\n" + (children + (i + (c + rest))));
  }

  /** An opening bracket span, a newline, then what the child lines parse to. */
  lemma ReadOpen(open: string, close: string, children: string, indent: nat, rest: string)
    requires '<' !in open
    ensures var lines := children + (Indent(indent) + (Punct(close) + rest));
      && Punct(open) + "\n" + children + Indent(indent) + Punct(close) + rest
         == Punct(open) + ("\n" + lines)
      && ParseValue(Punct(open) + ("\n" + lines)) == Interpret(PunctClass, open, "\n" + lines)
      && Consume("\n" + lines, "\n") == Some(lines)
  {
    var lines := children + (Indent(indent) + (Punct(close) + rest));
    OpenLines(open, close, children, indent, rest);
    SpanRead(PunctClass, open, "\n" + lines);
    ConsumePrefix("\n", lines);
  }

  lemma ReadArray(es: seq<Json>, indent: nat, rest: string)
    requires |es| == 0 || ParseElements(ElementLines(es, indent) + (Indent(indent) + (Punct("]") + rest))) == Some((es, rest))
    ensures ParseValue(Format(Array(es), indent) + rest) == Some((Array(es), rest))
  {
    if |es| == 0 {
      SpanRead(PunctClass, "[]", rest);
    } else {
      ReadOpen("[", "]", ElementLines(es, indent), indent, rest);
    }
  }

  lemma ReadObject(ms: seq<Member>, indent: nat, rest: string)
    requires |ms| == 0 || ParseMembers(MemberLines(ms, indent) + (Indent(indent) + (Punct("}") + rest))) == Some((ms, rest))
    ensures ParseValue(Format(Object(ms), indent) + rest) == Some((Object(ms), rest))
  {
    if |ms| == 0 {
      SpanRead(PunctClass, "{}", rest);
    } else {
      ReadOpen("{", "}", MemberLines(ms, indent), indent, rest);
    }
  }

  /** Reading back the rendering of `v`, followed by anything, gives `v` and
      exactly that following text. */
  lemma {:induction false} ReadFormat(v: Json, indent: nat, rest: string)
    ensures ParseValue(Format(v, indent) + rest) == Some((v, rest))
    decreases v, 1
  {
    match v
    case Array(es) =>
      if |es| > 0 {
        ListEndDone("]", indent, rest);
        ReadElementLines(es, indent, Indent(indent) + (Punct("]") + rest), rest);
      }
      ReadArray(es, indent, rest);
    case Object(ms) =>
      if |ms| > 0 {
        ListEndDone("}", indent, rest);
        ReadMemberLines(ms, indent, Indent(indent) + (Punct("}") + rest), rest);
      }
      ReadObject(ms, indent, rest);
    case _ =>
      ReadScalar(v, indent, rest);
  }

  /** After the indentation of the first element line comes its value, then
      what follows that value. */
  lemma ElementHead(es: seq<Json>, indent: nat, tail: string)
    requires |es| > 0
    ensures SkipSpaces(ElementLines(es, indent) + tail)
         == Format(es[0], indent + 1) + (Separator(0, |es|) + ("\n" + (ElementLines(es[1..], indent) + tail)))
  {
    ElementLinesUnfold(es, indent, tail);
    FormatStartsWithTag(es[0], indent + 1);
    SkipSpacesPrefix(Indent(indent + 1), Format(es[0], indent + 1) +
      (Separator(0, |es|) + ("\n" + (ElementLines(es[1..], indent) + tail))));
  }

  lemma MemberHead(ms: seq<Member>, indent: nat, tail: string)
    requires |ms| > 0
    ensures SkipSpaces(MemberLines(ms, indent) + tail)
         == MemberText(ms[0], indent) + (Separator(0, |ms|) + ("\n" + (MemberLines(ms[1..], indent) + tail)))
  {
    MemberLinesUnfold(ms, indent, tail);
    assert MemberText(ms[0], indent)[0] == '<';
    SkipSpacesPrefix(Indent(indent + 1), MemberText(ms[0], indent) +
      (Separator(0, |ms|) + ("\n" + (MemberLines(ms[1..], indent) + tail))));
  }

  /** The last element line, followed by a `tail` that closes the list. */
  lemma ElementLinesLast(es: seq<Json>, indent: nat, tail: string, rest: string)
    requires |es| == 1
    requires ParseListEnd("\n" + tail, "]") == Some((false, rest))
    requires ParseValue(Format(es[0], indent + 1) + ("\n" + tail)) == Some((es[0], "\n" + tail))
    ensures ParseElements(ElementLines(es, indent) + tail) == Some((es, rest))
  {
    ElementHead(es, indent, tail);
    assert Separator(0, |es|) + ("\n" + (ElementLines(es[1..], indent) + tail)) == "\n" + tail;
    ElementsLast(ElementLines(es, indent) + tail, es[0], "\n" + tail, rest);
    assert es == [es[0]];
  }

  /** An element line with a comma, followed by lines that read back as the
      remaining elements. */
  lemma ElementLinesMore(es: seq<Json>, indent: nat, tail: string, rest: string)
    requires |es| > 1
    requires ParseValue(Format(es[0], indent + 1) + (Punct(",") + ("\n" + (ElementLines(es[1..], indent) + tail))))
          == Some((es[0], Punct(",") + ("\n" + (ElementLines(es[1..], indent) + tail))))
    requires ParseElements(ElementLines(es[1..], indent) + tail) == Some((es[1..], rest))
    ensures ParseElements(ElementLines(es, indent) + tail) == Some((es, rest))
  {
    var after := ElementLines(es[1..], indent) + tail;
    ElementHead(es, indent, tail);
    ListEndMore("]", after);
    ElementsMore(ElementLines(es, indent) + tail, es[0], Punct(",") + ("\n" + after), after, es[1..], rest);
    assert es == [es[0]] + es[1..];
  }

  lemma MemberLinesLast(ms: seq<Member>, indent: nat, tail: string, rest: string)
    requires |ms| == 1
    requires ParseListEnd("\n" + tail, "}") == Some((false, rest))
    requires ParseMember(MemberText(ms[0], indent) + ("\n" + tail)) == Some((ms[0], "\n" + tail))
    ensures ParseMembers(MemberLines(ms, indent) + tail) == Some((ms, rest))
  {
    MemberHead(ms, indent, tail);
    assert Separator(0, |ms|) + ("\n" + (MemberLines(ms[1..], indent) + tail)) == "\n" + tail;
    MembersLast(MemberLines(ms, indent) + tail, ms[0], "\n" + tail, rest);
    assert ms == [ms[0]];
  }

  lemma MemberLinesMore(ms: seq<Member>, indent: nat, tail: string, rest: string)
    requires |ms| > 1
    requires ParseMember(MemberText(ms[0], indent) + (Punct(",") + ("\n" + (MemberLines(ms[1..], indent) + tail))))
          == Some((ms[0], Punct(",") + ("\n" + (MemberLines(ms[1..], indent) + tail))))
    requires ParseMembers(MemberLines(ms[1..], indent) + tail) == Some((ms[1..], rest))
    ensures ParseMembers(MemberLines(ms, indent) + tail) == Some((ms, rest))
  {
    var after := MemberLines(ms[1..], indent) + tail;
    MemberHead(ms, indent, tail);
    ListEndMore("}", after);
    MembersMore(MemberLines(ms, indent) + tail, ms[0], Punct(",") + ("\n" + after), after, ms[1..], rest);
    assert ms == [ms[0]] + ms[1..];
  }

  /** The element lines of a non-empty array, followed by a `tail` that
      closes the list, read back as the elements. */
  lemma {:induction false} ReadElementLines(es: seq<Json>, indent: nat, tail: string, rest: string)
    requires |es| > 0
    requires ParseListEnd("\n" + tail, "]") == Some((false, rest))
    ensures ParseElements(ElementLines(es, indent) + tail) == Some((es, rest))
    decreases es, 0
  {
    if |es| > 1 {
      ReadFormat(es[0], indent + 1, Punct(",") + ("\n" + (ElementLines(es[1..], indent) + tail)));
      ReadElementLines(es[1..], indent, tail, rest);
      ElementLinesMore(es, indent, tail, rest);
    } else {
      ReadFormat(es[0], indent + 1, "\n" + tail);
      ElementLinesLast(es, indent, tail, rest);
    }
  }

  /** The key span of a member reads back as its key. */
  lemma KeyRead(key: string, s1: string)
    ensures ParseSpanStart(Span(KeyClass, Quoted(key)) + s1) == Some((KeyClass, Quoted(key) + (TagClose + s1)))
    ensures ParseSpanText(Quoted(key) + (TagClose + s1)) == Some((Quoted(key), s1))
    ensures Unquote(Quoted(key)) == Some(key)
  {
    QuotedNoLt(key);
    SpanParts(KeyClass, Quoted(key), s1);
    UnquoteQuoted(key);
  }

  lemma MemberTextUnfold(m: Member, indent: nat, rest: string)
    ensures MemberText(m, indent) + rest
         == Span(KeyClass, Quoted(m.key)) + (Punct(": ") + (Format(m.value, indent + 1) + rest))
  {
    var k, p, f := Span(KeyClass, Quoted(m.key)), Punct(": "), Format(m.value, indent + 1);
    assert k + p + f + rest == k + (p + (f + rest));
  }

  /** A member line body reads back as the member once its value does. */
  lemma MemberTextRead(m: Member, indent: nat, rest: string)
    requires ParseValue(Format(m.value, indent + 1) + rest) == Some((m.value, rest))
    ensures ParseMember(MemberText(m, indent) + rest) == Some((m, rest))
  {
    var value := Format(m.value, indent + 1) + rest;
    var s1 := Punct(": ") + value;
    var key := Quoted(m.key);
    MemberTextUnfold(m, indent, rest);
    KeyRead(m.key, s1);
    ConsumePrefix(Punct(": "), value);
    MemberStep(MemberText(m, indent) + rest, key + (TagClose + s1), key, s1, m.key, value, m.value, rest);
  }

  lemma {:induction false} ReadMemberText(m: Member, indent: nat, rest: string)
    ensures ParseMember(MemberText(m, indent) + rest) == Some((m, rest))
    decreases m, 0
  {
    ReadFormat(m.value, indent + 1, rest);
    MemberTextRead(m, indent, rest);
  }

  /** The member lines of a non-empty object, followed by a `tail` that
      closes the list, read back as the members. */
  lemma {:induction false} ReadMemberLines(ms: seq<Member>, indent: nat, tail: string, rest: string)
    requires |ms| > 0
    requires ParseListEnd("\n" + tail, "}") == Some((false, rest))
    ensures ParseMembers(MemberLines(ms, indent) + tail) == Some((ms, rest))
    decreases ms, 0
  {
    if |ms| > 1 {
      ReadMemberText(ms[0], indent, Punct(",") + ("\n" + (MemberLines(ms[1..], indent) + tail)));
      ReadMemberLines(ms[1..], indent, tail, rest);
      MemberLinesMore(ms, indent, tail, rest);
    } else {
      ReadMemberText(ms[0], indent, "\n" + tail);
      MemberLinesLast(ms, indent, tail, rest);
    }
  }

  /** The rendering of a document reads back as exactly that document: no two
      documents render alike and nothing of a document is lost. */
  lemma RoundTrip(v: Json)
    ensures Parse(Format(v, 0)) == Some(v)
  {
    ReadFormat(v, 0, []);
    assert Format(v, 0) + [] == Format(v, 0);
  }
}

=== FILE: shell_profile.dfy ===
/**
 The key-setup helper's edit of the shell profile (`~/.zshrc`): given the
 profile's current text and the API key, the text written back. If the
 profile mentions `GEMINI_API_KEY` anywhere, every line that starts with
 `export GEMINI_API_KEY=` is replaced by an export of the new key and all
 other lines are kept; otherwise a comment line and an export line are
 appended. Reading and writing the file, the prompts and the environment
 are parameters here.
 */
module ShellProfile {
  import opened Text

  // ---------------------------------------------------------------------------
  // Lines

  /** Python `s.split('\n')`: the pieces between newlines, always at least one. */
  function Split(s: string): (r: seq<string>)
    ensures |r| > 0
    ensures forall i :: 0 <= i < |r| ==> '\n' !in r[i]
    decreases |s|
  {
    if |s| == 0 then [""]
    else
      var t := Split(s[1..]);
      if s[0] == '\n' then [""] + t
      else [[s[0]] + t[0]] + t[1..]
  }

  /** Python `'\n'.join(ls)`. */
  function Join(ls: seq<string>): string
    decreases |ls|
  {
    if |ls| == 0 then ""
    else if |ls| == 1 then ls[0]
    else ls[0] + "\n" + Join(ls[1..])
  }

  ghost predicate NoNewlines(ls: seq<string>) {
    forall i :: 0 <= i < |ls| ==> '\n' !in ls[i]
  }

  function NewlineCount(s: string): nat
    decreases |s|
  {
    if |s| == 0 then 0 else (if s[0] == '\n' then 1 else 0) + NewlineCount(s[1..])
  }

  /** Joining the pieces gives the text back. */
  lemma {:induction false} JoinSplit(s: string)
    ensures Join(Split(s)) == s
    decreases |s|
  {
    if |s| > 0 {
      var t := Split(s[1..]);
      JoinSplit(s[1..]);
      if s[0] == '\n' {
        assert s == "\n" + s[1..];
      } else {
        var u := [[s[0]] + t[0]] + t[1..];
        if |t| == 1 {
          assert s == [s[0]] + s[1..];
        } else {
          assert u[1..] == t[1..];
          assert Join(t) == t[0] + "\n" + Join(t[1..]);
          assert s == [s[0]] + s[1..];
        }
      }
    }
  }

  /** One piece per newline, plus one. */
  lemma {:induction false} SplitCount(s: string)
    ensures |Split(s)| == NewlineCount(s) + 1
    decreases |s|
  {
    if |s| > 0 {
      SplitCount(s[1..]);
    }
  }

  lemma {:induction false} SplitLine(l: string)
    requires '\n' !in l
    ensures Split(l) == [l]
    decreases |l|
  {
    if |l| > 0 {
      SplitLine(l[1..]);
      assert l == [l[0]] + l[1..];
    }
  }

  /** Splitting at a newline splits the two sides separately. */
  lemma {:induction false} SplitAppend(a: string, b: string)
    ensures Split(a + "\n" + b) == Split(a) + Split(b)
    decreases |a|
  {
    var s := a + "\n" + b;
    if |a| == 0 {
      assert s == "\n" + b;
      assert s[1..] == b;
    } else {
      assert s[0] == a[0];
      assert s[1..] == a[1..] + "\n" + b;
      SplitAppend(a[1..], b);
    }
  }

  /** Appending a newline, a line, a newline, a line and a newline adds
      those two lines and an empty one. */
  lemma SplitThreeMore(s: string, a: string, b: string)
    requires '\n' !in a && '\n' !in b
    ensures Split(s + ("\n" + a + "\n" + b + "\n")) == Split(s) + [a, b, ""]
  {
    assert s + ("\n" + a + "\n" + b + "\n") == s + "\n" + (a + "\n" + (b + "\n" + ""));
    SplitAppend(s, a + "\n" + (b + "\n" + ""));
    SplitAppend(a, b + "\n" + "");
    SplitAppend(b, "");
    SplitLine(a);
    SplitLine(b);
  }

  /** Splitting joined newline-free lines gives the lines back. */
  lemma {:induction false} SplitJoin(ls: seq<string>)
    requires |ls| > 0 && NoNewlines(ls)
    ensures Split(Join(ls)) == ls
    decreases |ls|
  {
    if |ls| == 1 {
      SplitLine(ls[0]);
    } else {
      SplitJoin(ls[1..]);
      SplitAppend(ls[0], Join(ls[1..]));
      SplitLine(ls[0]);
      assert ls == [ls[0]] + ls[1..];
    }
  }

  /** A substring of one line is a substring of the joined text. */
  lemma {:induction false} LineIncludes(ls: seq<string>, i: nat, p: string)
    requires i < |ls| && Includes(ls[i], p)
    ensures Includes(Join(ls), p)
    decreases |ls|
  {
    if |ls| > 1 {
      if i == 0 {
        IncludesAppend(ls[0], "\n" + Join(ls[1..]), p);
        assert ls[0] + "\n" + Join(ls[1..]) == ls[0] + ("\n" + Join(ls[1..]));
      } else {
        LineIncludes(ls[1..], i - 1, p);
        IncludesAppend(ls[0] + "\n", Join(ls[1..]), p);
      }
    }
  }

  // ---------------------------------------------------------------------------
  // The rewrite

  const VarName: string := "GEMINI_API_KEY"
  const ExportPrefix: string := "export GEMINI_API_KEY="
  const Comment: string := "# Gemini API Key for EZLaw Chatbot"

  lemma CommentShape()
    ensures '\n' !in Comment && Comment[0] == '#'
  {
    assert forall i :: 0 <= i < |Comment| ==> Comment[i] != '\n';
  }

  /** `export GEMINI_API_KEY="<key>"`. */
  function ExportLine(key: string): string {
    ExportPrefix + "\"" + key + "\""
  }

  /** What is appended to a profile that does not mention the variable. */
  function Block(key: string): string {
    "\n" + Comment + "\n" + ExportLine(key) + "\n"
  }

  /** One line of the update loop. */
  function UpdateLine(line: string, key: string): string {
    if StartsWith(line, ExportPrefix) then ExportLine(key) else line
  }

  function UpdateLines(lines: seq<string>, key: string): (r: seq<string>)
    ensures |r| == |lines|
  {
    seq(|lines|, i requires 0 <= i < |lines| => UpdateLine(lines[i], key))
  }

  /** The profile text written back for `content` and `key`. */
  function Rewrite(content: string, key: string): string {
    if Includes(content, VarName) then Join(UpdateLines(Split(content), key))
    else content + Block(key)
  }

  lemma ExportLineShape(key: string)
    ensures StartsWith(ExportLine(key), ExportPrefix)
    ensures Includes(ExportLine(key), VarName)
    ensures '\n' !in key ==> '\n' !in ExportLine(key)
  {
    PrefixMentionsVar(ExportLine(key));
  }

  /** The variable's name sits at position 7 of the export prefix. */
  lemma ExportPrefixHasVar()
    ensures |ExportPrefix| == 22 && ExportPrefix[7..7 + |VarName|] == VarName
  {
  }

  /** A line that exports the variable mentions it. */
  lemma PrefixMentionsVar(line: string)
    requires StartsWith(line, ExportPrefix)
    ensures Includes(line, VarName)
  {
    ExportPrefixHasVar();
    assert line[..|ExportPrefix|] == ExportPrefix;
    assert line[7..7 + |VarName|] == ExportPrefix[7..7 + |VarName|];
    assert OccursAt(line, VarName, 7);
    IncludesIff(line, VarName);
  }

  /** Updated lines stay free of newlines when the key is. */
  lemma UpdateLinesNoNewlines(lines: seq<string>, key: string)
    requires NoNewlines(lines) && '\n' !in key
    ensures NoNewlines(UpdateLines(lines, key))
  {
    ExportLineShape(key);
  }

  /** Updating already updated lines changes nothing. */
  lemma UpdateLinesTwice(lines: seq<string>, key: string)
    ensures UpdateLines(UpdateLines(lines, key), key) == UpdateLines(lines, key)
  {
    ExportLineShape(key);
  }

  /** A profile that does not mention the variable exports nothing. */
  lemma NoMentionNoExport(content: string)
    requires !Includes(content, VarName)
    ensures forall i :: 0 <= i < |Split(content)| ==> !StartsWith(Split(content)[i], ExportPrefix)
  {
    forall i | 0 <= i < |Split(content)|
      ensures !StartsWith(Split(content)[i], ExportPrefix)
    {
      if StartsWith(Split(content)[i], ExportPrefix) {
        PrefixMentionsVar(Split(content)[i]);
        LineIncludes(Split(content), i, VarName);
        JoinSplit(content);
      }
    }
  }

  /** Without a mention of the variable the profile is kept as a prefix, and
      exactly three lines follow its last one: the comment, the export of the
      key and an empty last line. */
  lemma RewriteAppends(content: string, key: string)
    requires !Includes(content, VarName) && '\n' !in key
    ensures StartsWith(Rewrite(content, key), content)
    ensures Split(Rewrite(content, key)) == Split(content) + [Comment, ExportLine(key), ""]
  {
    var r := Rewrite(content, key);
    assert r == content + Block(key);
    assert r[..|content|] == content;
    ExportLineShape(key);
    CommentShape();
    SplitThreeMore(content, Comment, ExportLine(key));
  }

  /** With a mention of the variable the profile keeps its lines: each line
      that starts with `export GEMINI_API_KEY=` becomes the export of the new
      key, and every other line is unchanged. */
  lemma RewriteUpdates(content: string, key: string)
    requires Includes(content, VarName) && '\n' !in key
    ensures |Split(Rewrite(content, key))| == |Split(content)|
    ensures forall i :: 0 <= i < |Split(content)| ==>
      Split(Rewrite(content, key))[i]
        == (if StartsWith(Split(content)[i], ExportPrefix) then ExportLine(key) else Split(content)[i])
  {
    UpdateLinesNoNewlines(Split(content), key);
    SplitJoin(UpdateLines(Split(content), key));
  }

  /** A profile that mentions the variable without exporting it is written
      back unchanged: the new key is not saved. */
  lemma RewriteWithoutExport(content: string, key: string)
    requires Includes(content, VarName)
    requires forall i :: 0 <= i < |Split(content)| ==> !StartsWith(Split(content)[i], ExportPrefix)
    ensures Rewrite(content, key) == content
  {
    assert UpdateLines(Split(content), key) == Split(content);
    JoinSplit(content);
  }

  /** After the rewrite every export line of the profile exports `key`; and an
      export of `key` is present exactly when the profile did not mention the
      variable or already had an export line. */
  lemma RewriteExportsKey(content: string, key: string)
    requires '\n' !in key
    ensures forall i :: 0 <= i < |Split(Rewrite(content, key))| ==>
      (StartsWith(Split(Rewrite(content, key))[i], ExportPrefix) ==> Split(Rewrite(content, key))[i] == ExportLine(key))
    ensures ExportLine(key) in Split(Rewrite(content, key)) <==>
      (|| !Includes(content, VarName)
       || exists i :: 0 <= i < |Split(content)| && StartsWith(Split(content)[i], ExportPrefix))
  {
    if Includes(content, VarName) {
      UpdatedExports(content, key);
    } else {
      AppendedExports(content, key);
    }
  }

  lemma UpdatedExports(content: string, key: string)
    requires '\n' !in key && Includes(content, VarName)
    ensures forall i :: 0 <= i < |Split(Rewrite(content, key))| ==>
      (StartsWith(Split(Rewrite(content, key))[i], ExportPrefix) ==> Split(Rewrite(content, key))[i] == ExportLine(key))
    ensures ExportLine(key) in Split(Rewrite(content, key)) <==>
      exists i :: 0 <= i < |Split(content)| && StartsWith(Split(content)[i], ExportPrefix)
  {
    var ls := Split(content);
    var out := Split(Rewrite(content, key));
    ExportLineShape(key);
    RewriteUpdates(content, key);
    if ExportLine(key) in out {
      var j :| 0 <= j < |out| && out[j] == ExportLine(key);
      assert StartsWith(ls[j], ExportPrefix);
    }
  }

  lemma AppendedExports(content: string, key: string)
    requires '\n' !in key && !Includes(content, VarName)
    ensures forall i :: 0 <= i < |Split(Rewrite(content, key))| ==>
      (StartsWith(Split(Rewrite(content, key))[i], ExportPrefix) ==> Split(Rewrite(content, key))[i] == ExportLine(key))
    ensures ExportLine(key) in Split(Rewrite(content, key))
  {
    var ls := Split(content);
    var out := Split(Rewrite(content, key));
    RewriteAppends(content, key);
    NoMentionNoExport(content);
    CommentShape();
    assert out[|ls| + 1] == ExportLine(key);
    assert forall i :: 0 <= i < |ls| ==> out[i] == ls[i];
    assert !StartsWith(out[|ls|], ExportPrefix) by {
      assert out[|ls|] == Comment;
      assert Comment[0] != ExportPrefix[0];
    }
    assert out[|ls| + 2] == "";
  }

  /** The rewritten profile still mentions the variable. */
  lemma RewriteMentions(content: string, key: string)
    requires '\n' !in key
    ensures Includes(Rewrite(content, key), VarName)
  {
    ExportLineShape(key);
    if Includes(content, VarName) {
      var ls := Split(content);
      if exists i :: 0 <= i < |ls| && StartsWith(ls[i], ExportPrefix) {
        var i :| 0 <= i < |ls| && StartsWith(ls[i], ExportPrefix);
        RewriteUpdates(content, key);
        JoinSplit(Rewrite(content, key));
        LineIncludes(Split(Rewrite(content, key)), i, VarName);
      } else {
        RewriteWithoutExport(content, key);
      }
    } else {
      assert Block(key) == "\n" + Comment + "\n" + (ExportLine(key) + "\n");
      IncludesAppend(ExportLine(key), "\n", VarName);
      IncludesAppend("\n" + Comment + "\n", ExportLine(key) + "\n", VarName);
      IncludesAppend(content, Block(key), VarName);
    }
  }

  /** Running the setup twice with the same key writes the same profile as
      running it once. */
  lemma RewriteIdempotent(content: string, key: string)
    requires '\n' !in key
    ensures Rewrite(Rewrite(content, key), key) == Rewrite(content, key)
  {
    var r := Rewrite(content, key);
    RewriteMentions(content, key);
    ExportLineShape(key);
    if Includes(content, VarName) {
      var ls := Split(content);
      UpdateLinesNoNewlines(ls, key);
      SplitJoin(UpdateLines(ls, key));
      UpdateLinesTwice(ls, key);
    } else {
      RewriteAppends(content, key);
      NoMentionNoExport(content);
      var out := Split(r);
      assert Comment[0] != ExportPrefix[0];
      assert UpdateLines(out, key) == out;
      JoinSplit(r);
    }
  }

  // ---------------------------------------------------------------------------
  // The setup dialogue

  /** How a run of the setup ends. */
  datatype Outcome =
    | KeptExisting            // a key is already set and the update was declined
    | NoKey                   // the pasted key was blank
    | Declined                // the key looks wrong and continuing was declined
    | Written(key: string, profile: string)

  /** A yes to a `(y/n)` prompt: the answer lower-cased and stripped is `y`. */
  predicate Yes(answer: string) {
    PyStrip(Lower(answer)) == "y"
  }

  /** The dialogue of the setup helper. `existingKey` is the environment's
      current value ("" when unset), `keyLine` the pasted line and `profile` the
      profile's text ("" when the file does not exist). */
  function Setup(existingKey: string, updateAnswer: string, keyLine: string,
                 confirmAnswer: string, profile: string): (r: Outcome)
    requires '\n' !in keyLine
    ensures r.Written? ==> r.key != [] && '\n' !in r.key && r.key == PyStrip(keyLine)
    ensures r.Written? ==> r.profile == Rewrite(profile, r.key)
  {
    if existingKey != "" && !Yes(updateAnswer) then KeptExisting
    else
      var key := PyStrip(keyLine);
      if key == "" then NoKey
      else if !StartsWith(key, "AIza") && !Yes(confirmAnswer) then Declined
      else
        assert forall c :: c in key ==> c in keyLine;
        Written(key, Rewrite(profile, key))
  }

  /** The profile is written exactly when no key was set or the update was
      accepted, the pasted key is not blank, and it starts with `AIza` or the
      warning was overridden. */
  lemma SetupWritesIff(existingKey: string, updateAnswer: string, keyLine: string,
                       confirmAnswer: string, profile: string)
    requires '\n' !in keyLine
    ensures Setup(existingKey, updateAnswer, keyLine, confirmAnswer, profile).Written? <==>
      && (existingKey == "" || Yes(updateAnswer))
      && (exists i :: 0 <= i < |keyLine| && !IsPyWhitespace(keyLine[i]))
      && (StartsWith(PyStrip(keyLine), "AIza") || Yes(confirmAnswer))
  {
    var key := PyStrip(keyLine);
    if exists i :: 0 <= i < |keyLine| && !IsPyWhitespace(keyLine[i]) {
      assert key != [];
    } else {
      assert key == [];
    }
  }

  /** Answering a second run the same way leaves the profile as the first
      run wrote it. */
  lemma SetupTwice(existingKey: string, updateAnswer: string, keyLine: string,
                   confirmAnswer: string, profile: string)
    requires '\n' !in keyLine
    requires Setup(existingKey, updateAnswer, keyLine, confirmAnswer, profile).Written?
    ensures
      var first := Setup(existingKey, updateAnswer, keyLine, confirmAnswer, profile);
      Setup(existingKey, updateAnswer, keyLine, confirmAnswer, first.profile) == first
  {
    RewriteIdempotent(profile, PyStrip(keyLine));
  }
}

=== FILE: sorting.dfy ===
/**
 The sort both dropdown orderings use. JavaScript's `Array.prototype.sort` is
 stable, and so is `Sort` (`SortStable`). Both comparators in the dropdown
 compare first an integer rank (the match priority, or nothing) and then a
 name, so one sort keyed by `Key(rank, text)` serves both.
 */
module Sorting {
  import opened Text

  /** Sort key: ascending `rank`, ties broken by lexicographic `text`. */
  datatype Key = Key(rank: int, text: string)

  predicate KeyLe(a: Key, b: Key) {
    a.rank < b.rank || (a.rank == b.rank && LexLe(a.text, b.text))
  }

  lemma KeyLeRefl(a: Key)
    ensures KeyLe(a, a)
  {
    LexLeRefl(a.text);
  }

  lemma KeyLeTotal(a: Key, b: Key)
    ensures KeyLe(a, b) || KeyLe(b, a)
  {
    LexLeTotal(a.text, b.text);
  }

  lemma KeyLeTrans(a: Key, b: Key, c: Key)
    requires KeyLe(a, b) && KeyLe(b, c)
    ensures KeyLe(a, c)
  {
    if a.rank == b.rank == c.rank {
      LexLeTrans(a.text, b.text, c.text);
    }
  }

  /** Every element sorts no later than every element after it. */
  ghost predicate SortedBy<T>(s: seq<T>, key: T -> Key) {
    forall i, j :: 0 <= i < j < |s| ==> KeyLe(key(s[i]), key(s[j]))
  }

  /** Every element of `s` sorts no earlier than `x`. */
  ghost predicate AllAtLeast<T>(x: T, s: seq<T>, key: T -> Key) {
    forall i :: 0 <= i < |s| ==> KeyLe(key(x), key(s[i]))
  }

  /** A lower bound for one arrangement of some elements bounds every arrangement of them. */
  lemma AllAtLeastPerm<T>(y: T, a: seq<T>, b: seq<T>, key: T -> Key)
    requires multiset(a) == multiset(b) && AllAtLeast(y, b, key)
    ensures AllAtLeast(y, a, key)
  {
    forall i | 0 <= i < |a|
      ensures KeyLe(key(y), key(a[i]))
    {
      assert a[i] in multiset(b);
      var j :| 0 <= j < |b| && b[j] == a[i];
    }
  }

  /** Whatever sorts no later than the first element of a sorted sequence
      sorts no later than all of it. */
  lemma BelowFirst<T>(x: T, s: seq<T>, key: T -> Key)
    requires SortedBy(s, key) && |s| > 0 && KeyLe(key(x), key(s[0]))
    ensures AllAtLeast(x, s, key)
  {
    forall j | 0 <= j < |s|
      ensures KeyLe(key(x), key(s[j]))
    {
      if j > 0 {
        KeyLeTrans(key(x), key(s[0]), key(s[j]));
      }
    }
  }

  /** Places `x` in front of the first element that does not sort before it. */
  function Insert<T>(x: T, s: seq<T>, key: T -> Key): (r: seq<T>)
    requires SortedBy(s, key)
    ensures SortedBy(r, key)
    ensures multiset(r) == multiset(s) + multiset{x}
    decreases |s|
  {
    if |s| == 0 then [x]
    else if KeyLe(key(x), key(s[0])) then
      BelowFirst(x, s, key);
      assert s == [s[0]] + s[1..];
      [x] + s
    else
      KeyLeTotal(key(x), key(s[0]));
      var rest := Insert(x, s[1..], key);
      assert AllAtLeast(s[0], s[1..] + [x], key);
      AllAtLeastPerm(s[0], rest, s[1..] + [x], key);
      assert s == [s[0]] + s[1..];
      [s[0]] + rest
  }

  /** Insertion sort: the result is ordered by `key` and holds exactly the input's elements. */
  function Sort<T>(s: seq<T>, key: T -> Key): (r: seq<T>)
    ensures SortedBy(r, key)
    ensures multiset(r) == multiset(s)
    ensures |r| == |s|
    decreases |s|
  {
    if |s| == 0 then []
    else
      assert s == [s[0]] + s[1..];
      Insert(s[0], Sort(s[1..], key), key)
  }

  /** The elements of `s` whose key is `k`, in their order in `s`. */
  function WithKey<T>(s: seq<T>, key: T -> Key, k: Key): (r: seq<T>)
    ensures forall i :: 0 <= i < |r| ==> key(r[i]) == k
    decreases |s|
  {
    if |s| == 0 then []
    else (if key(s[0]) == k then [s[0]] else []) + WithKey(s[1..], key, k)
  }

  lemma WithKeyCons<T>(x: T, s: seq<T>, key: T -> Key, k: Key)
    ensures WithKey([x] + s, key, k) == (if key(x) == k then [x] else []) + WithKey(s, key, k)
  {
    assert ([x] + s)[1..] == s;
  }

  /** Putting an element with a key other than `x`'s in front of both sides
      keeps `x` in front of the rest of its key. */
  lemma WithKeyPast<T>(y: T, x: T, r: seq<T>, t: seq<T>, key: T -> Key, k: Key)
    requires key(y) != key(x)
    requires WithKey(r, key, k) == (if key(x) == k then [x] else []) + WithKey(t, key, k)
    ensures WithKey([y] + r, key, k) == (if key(x) == k then [x] else []) + WithKey([y] + t, key, k)
  {
    WithKeyCons(y, r, key, k);
    WithKeyCons(y, t, key, k);
  }

  /** Inserting `x` puts it in front of every element with the same key. */
  lemma {:induction false} InsertStable<T>(x: T, s: seq<T>, key: T -> Key, k: Key)
    requires SortedBy(s, key)
    ensures WithKey(Insert(x, s, key), key, k) == (if key(x) == k then [x] else []) + WithKey(s, key, k)
    decreases |s|
  {
    if |s| == 0 {
      WithKeyCons(x, [], key, k);
    } else if KeyLe(key(x), key(s[0])) {
      WithKeyCons(x, s, key, k);
    } else {
      KeyLeRefl(key(x));
      InsertStable(x, s[1..], key, k);
      WithKeyPast(s[0], x, Insert(x, s[1..], key), s[1..], key, k);
      assert s == [s[0]] + s[1..];
    }
  }

  /** Stability: elements with equal keys keep their relative order. */
  lemma {:induction false} SortStable<T>(s: seq<T>, key: T -> Key, k: Key)
    ensures WithKey(Sort(s, key), key, k) == WithKey(s, key, k)
    decreases |s|
  {
    if |s| > 0 {
      SortStable(s[1..], key, k);
      InsertStable(s[0], Sort(s[1..], key), key, k);
      WithKeyCons(s[0], s[1..], key, k);
      assert s == [s[0]] + s[1..];
    }
  }

  /** Sorting an already sorted sequence changes nothing. */
  lemma {:induction false} SortOfSorted<T>(s: seq<T>, key: T -> Key)
    requires SortedBy(s, key)
    ensures Sort(s, key) == s
    decreases |s|
  {
    if |s| > 0 {
      SortOfSorted(s[1..], key);
      assert s == [s[0]] + s[1..];
    }
  }

  /** Sorting is idempotent. */
  lemma SortIdempotent<T>(s: seq<T>, key: T -> Key)
    ensures Sort(Sort(s, key), key) == Sort(s, key)
  {
    SortOfSorted(Sort(s, key), key);
  }
}

=== FILE: states_dropdown.dfy ===
/**
 The searchable state-name dropdown of `JSONViewer` (static/js/script.js),
 reduced to a value: the `.dropdown-item` elements in DOM order with their
 `hidden` and `highlighted` classes, whether the container carries `open`,
 `highlightedIndex`, `selectedStateData` and the text of the input box.
 Every event handler becomes a function from the old value to the new one.
 */
module StatesDropdown {
  import opened Wrappers
  import opened Text
  import opened Sorting

  /** A state: the item's `textContent` and its `data-value` code. */
  datatype Entry = Entry(name: string, code: string)

  /** One `.dropdown-item` element: its entry and whether it has the
      `hidden` and the `highlighted` class. */
  datatype Item = Item(entry: Entry, hidden: bool, marked: bool)

  /** The observable state of the dropdown. */
  datatype Dropdown = Dropdown(
    items: seq<Item>,        // children of the dropdown, in DOM order
    open: bool,              // the container has the `open` class
    highlighted: int,        // `highlightedIndex`, -1 for none
    selected: Option<Entry>, // `selectedStateData`
    input: string            // the input box's value
  )

  /** The keys `handleKeyNavigation` distinguishes; every other key is `OtherKey`. */
  datatype KeyName = ArrowDown | ArrowUp | Enter | Escape | OtherKey

  /** The events the controller listens to. */
  datatype Event =
    | Typed(text: string)      // `input` event: the box now holds `text`
    | KeyDown(key: KeyName)    // `keydown` on the box
    | ClickItem(index: nat)    // click on the `index`-th item in DOM order
    | FocusInput               // `focus` on the box
    | ClickOutside             // document click outside the dropdown container
    | ClickClear               // click on the clear-selection button

  function Min(a: int, b: int): int { if a <= b then a else b }
  function Max(a: int, b: int): int { if a >= b then a else b }

  // ---------------------------------------------------------------------------
  // Views of the item list

  /** The entries of the items, in DOM order. */
  function Entries(items: seq<Item>): (r: seq<Entry>)
    ensures |r| == |items|
  {
    seq(|items|, i requires 0 <= i < |items| => items[i].entry)
  }

  /** `querySelectorAll('.dropdown-item:not(.hidden)')`: the visible entries in DOM order. */
  function Visible(items: seq<Item>): (r: seq<Entry>)
    ensures |r| <= |items|
  {
    if |items| == 0 then []
    else (if items[0].hidden then [] else [items[0].entry]) + Visible(items[1..])
  }

  /** Position of item `i` among the visible items. */
  function VisibleRank(items: seq<Item>, i: nat): nat
    requires i <= |items|
  {
    |Visible(items[..i])|
  }

  /** Items showing `es` in order, with no class set. */
  function Shown(es: seq<Entry>): (r: seq<Item>)
    ensures Entries(r) == es
  {
    seq(|es|, i requires 0 <= i < |es| => Item(es[i], false, false))
  }

  /** Items holding `es` in order, each with the `hidden` class and no other. */
  function Hidden(es: seq<Entry>): (r: seq<Item>)
    ensures Entries(r) == es
  {
    seq(|es|, i requires 0 <= i < |es| => Item(es[i], true, false))
  }

  /** Removes the `highlighted` class from every item. */
  function Unmark(items: seq<Item>): (r: seq<Item>)
    ensures Entries(r) == Entries(items)
  {
    seq(|items|, i requires 0 <= i < |items| => items[i].(marked := false))
  }

  /** `updateHighlight`: clears the class on the visible items, then sets it on
      visible item `k` when there is one. Hidden items keep their class. */
  function MarkVisible(items: seq<Item>, k: int): (r: seq<Item>)
    ensures Entries(r) == Entries(items)
    ensures |r| == |items| && forall i :: 0 <= i < |items| ==> r[i].hidden == items[i].hidden
  {
    seq(|items|, i requires 0 <= i < |items| =>
      if items[i].hidden then items[i] else items[i].(marked := VisibleRank(items, i) == k))
  }

  /** Exactly the visible item at position `k` has the `highlighted` class
      (no item at all when `k` is not a visible position). */
  ghost predicate MarksAt(items: seq<Item>, k: int) {
    forall i :: 0 <= i < |items| ==>
      (items[i].marked <==> !items[i].hidden && VisibleRank(items, i) == k)
  }

  // ---------------------------------------------------------------------------
  // Matching and ordering (handleStatesInput)

  /** The match priority of `e` for the lower-cased, trimmed query `q`:
      1 name prefix, 2 code prefix, 3 name substring, 4 code substring, -1 no match. */
  function Priority(q: string, e: Entry): (p: int)
    ensures p == -1 || 1 <= p <= 4
  {
    var name := Lower(e.name);
    var code := Lower(e.code);
    if StartsWith(name, q) then 1
    else if StartsWith(code, q) then 2
    else if Includes(name, q) then 3
    else if Includes(code, q) then 4
    else -1
  }

  /** The filter's comparator: priority, then lower-cased name. */
  function RankKey(q: string): Entry -> Key {
    e => Key(Priority(q, e), Lower(e.name))
  }

  /** `restoreOriginalOrder`'s comparator: the name as written. */
  function NameKey(e: Entry): Key {
    Key(0, e.name)
  }

  /** The entries that match `q`, in the given order. */
  function Matching(q: string, es: seq<Entry>): (r: seq<Entry>)
    ensures forall e :: e in r ==> Priority(q, e) > 0
    ensures forall e :: e in es && Priority(q, e) > 0 ==> e in r
  {
    if |es| == 0 then []
    else (if Priority(q, es[0]) > 0 then [es[0]] else []) + Matching(q, es[1..])
  }

  /** The entries that do not match `q`, in the given order. */
  function NotMatching(q: string, es: seq<Entry>): (r: seq<Entry>)
    ensures forall e :: e in r ==> Priority(q, e) <= 0
  {
    if |es| == 0 then []
    else (if Priority(q, es[0]) > 0 then [] else [es[0]]) + NotMatching(q, es[1..])
  }

  /** The DOM after filtering by a non-empty query: every item is hidden and
      unhighlighted, then the matches are un-hidden and appended in ranked
      order, so the non-matching items stay in front in their old order. */
  function Filtered(items: seq<Item>, q: string): seq<Item> {
    var es := Entries(items);
    Hidden(NotMatching(q, es)) + Shown(Sort(Matching(q, es), RankKey(q)))
  }

  /** `restoreOriginalOrder`: all items sorted by name, without any class. */
  function Restored(items: seq<Item>): seq<Item> {
    Shown(Sort(Entries(items), NameKey))
  }

  // ---------------------------------------------------------------------------
  // Transitions

  /** The page's initial markup: the items in the given order, nothing open,
      highlighted or selected. */
  function Init(states: seq<Entry>): Dropdown {
    Dropdown(Shown(states), false, -1, None, "")
  }

  /** `openDropdown`. */
  function Open(d: Dropdown): Dropdown {
    d.(open := true)
  }

  /** `closeDropdown`. */
  function Close(d: Dropdown): Dropdown {
    d.(open := false, highlighted := -1, items := Unmark(d.items))
  }

  /** `handleStatesInput`, after the box's value has become `text`. */
  function Input(d: Dropdown, text: string): Dropdown {
    var q := JsTrim(Lower(text));
    var d1 := d.(input := text);
    if q == [] then
      // the highlight index is deliberately left as it was
      Open(d1.(items := Restored(d.items)))
    else
      var items := Filtered(d.items, q);
      var d2 := d1.(items := items, highlighted := -1);
      if |Matching(q, Entries(d.items))| > 0 then Open(d2) else Close(d2)
  }

  /** `selectState` for an item showing `e`. */
  function Select(d: Dropdown, e: Entry): Dropdown {
    Close(d.(selected := Some(e), input := e.name))
  }

  /** `handleKeyNavigation`. */
  function KeyNav(d: Dropdown, key: KeyName): Dropdown {
    var vis := Visible(d.items);
    match key
    case ArrowDown =>
      var h := Min(d.highlighted + 1, |vis| - 1);
      d.(highlighted := h, items := MarkVisible(d.items, h))
    case ArrowUp =>
      var h := Max(d.highlighted - 1, -1);
      d.(highlighted := h, items := MarkVisible(d.items, h))
    case Enter =>
      if 0 <= d.highlighted < |vis| then Select(d, vis[d.highlighted]) else d
    case Escape => Close(d)
    case OtherKey => d
  }

  /** `clearStateSelection` (the `focus()` it ends with is the separate `FocusInput` event). */
  function Clear(d: Dropdown): Dropdown {
    d.(selected := None, input := "", highlighted := -1, items := Restored(d.items))
  }

  /** A click can only land on an existing item. */
  predicate ValidEvent(d: Dropdown, ev: Event) {
    ev.ClickItem? ==> ev.index < |d.items|
  }

  function Step(d: Dropdown, ev: Event): Dropdown
    requires ValidEvent(d, ev)
  {
    match ev
    case Typed(text) => Input(d, text)
    case KeyDown(key) => KeyNav(d, key)
    case ClickItem(i) => Select(d, d.items[i].entry)
    case FocusInput => Open(d)
    case ClickOutside => Close(d)
    case ClickClear => Clear(d)
  }

  /** Applies `key` `k` times in a row. */
  function Repeat(d: Dropdown, key: KeyName, k: nat): Dropdown
    decreases k
  {
    if k == 0 then d else Repeat(KeyNav(d, key), key, k - 1)
  }

  // ---------------------------------------------------------------------------
  // The invariant

  /** The highlight index stays within [-1, visibleCount-1], and the
      `highlighted` class sits on the visible item it names or on no item. */
  ghost predicate Wf(d: Dropdown) {
    && -1 <= d.highlighted < |Visible(d.items)|
    && (MarksAt(d.items, d.highlighted) || MarksAt(d.items, -1))
  }

  // ---------------------------------------------------------------------------
  // Facts about the views

  lemma {:induction false} VisibleAppend(a: seq<Item>, b: seq<Item>)
    ensures Visible(a + b) == Visible(a) + Visible(b)
    decreases |a|
  {
    if |a| > 0 {
      assert (a + b)[1..] == a[1..] + b;
      VisibleAppend(a[1..], b);
    } else {
      assert a + b == b;
    }
  }

  lemma EntriesAppend(a: seq<Item>, b: seq<Item>)
    ensures Entries(a + b) == Entries(a) + Entries(b)
  {
  }

  lemma {:induction false} VisibleShown(es: seq<Entry>)
    ensures Visible(Shown(es)) == es
    decreases |es|
  {
    if |es| > 0 {
      assert Shown(es)[1..] == Shown(es[1..]);
      VisibleShown(es[1..]);
    }
  }

  lemma {:induction false} VisibleHidden(es: seq<Entry>)
    ensures Visible(Hidden(es)) == []
    decreases |es|
  {
    if |es| > 0 {
      assert Hidden(es)[1..] == Hidden(es[1..]);
      VisibleHidden(es[1..]);
    }
  }

  /** Two item lists that agree on entries and `hidden` classes have the same visible list. */
  lemma {:induction false} VisibleIgnoresMarks(a: seq<Item>, b: seq<Item>)
    requires |a| == |b|
    requires forall i :: 0 <= i < |a| ==> a[i].entry == b[i].entry && a[i].hidden == b[i].hidden
    ensures Visible(a) == Visible(b)
    decreases |a|
  {
    if |a| > 0 {
      VisibleIgnoresMarks(a[1..], b[1..]);
    }
  }

  /** A visible item's rank is its index in the visible list. */
  lemma VisibleRankIndex(items: seq<Item>, i: nat)
    requires i < |items| && !items[i].hidden
    ensures VisibleRank(items, i) < |Visible(items)|
    ensures Visible(items)[VisibleRank(items, i)] == items[i].entry
  {
    assert items == items[..i] + ([items[i]] + items[i + 1..]);
    VisibleAppend(items[..i], [items[i]] + items[i + 1..]);
    VisibleAppend([items[i]], items[i + 1..]);
  }

  /** Re-marking keeps the visible list and every visible rank. */
  lemma MarkVisibleShape(items: seq<Item>, k: int)
    ensures Visible(MarkVisible(items, k)) == Visible(items)
    ensures forall i :: 0 <= i <= |items| ==> VisibleRank(MarkVisible(items, k), i) == VisibleRank(items, i)
  {
    var r := MarkVisible(items, k);
    VisibleIgnoresMarks(r, items);
    forall i | 0 <= i <= |items|
      ensures VisibleRank(r, i) == VisibleRank(items, i)
    {
      VisibleIgnoresMarks(r[..i], items[..i]);
    }
  }

  /** After `updateHighlight(k)` exactly the visible item at position `k` is highlighted,
      provided no hidden item was. */
  lemma MarkVisibleMarks(items: seq<Item>, k: int)
    requires forall i :: 0 <= i < |items| && items[i].hidden ==> !items[i].marked
    ensures MarksAt(MarkVisible(items, k), k)
  {
    MarkVisibleShape(items, k);
  }

  /** Clearing the class where none is set changes nothing. */
  lemma UnmarkUnmarked(items: seq<Item>)
    requires forall i :: 0 <= i < |items| ==> !items[i].marked
    ensures Unmark(items) == items
  {
  }

  lemma UnmarkShape(items: seq<Item>)
    ensures Visible(Unmark(items)) == Visible(items)
    ensures MarksAt(Unmark(items), -1)
  {
    VisibleIgnoresMarks(Unmark(items), items);
  }


  // ---------------------------------------------------------------------------
  // Matching

  /** An entry matches exactly when the query occurs in its lower-cased name or
      code: the prefix tests only decide the priority, never whether it matches. */
  lemma MatchIff(q: string, e: Entry)
    ensures Priority(q, e) > 0 <==>
      (exists i :: OccursAt(Lower(e.name), q, i)) || (exists i :: OccursAt(Lower(e.code), q, i))
  {
    IncludesIff(Lower(e.name), q);
    IncludesIff(Lower(e.code), q);
  }

  /** The matches keep every matching entry with its multiplicity, and nothing else. */
  lemma {:induction false} MatchingCount(q: string, es: seq<Entry>, e: Entry)
    ensures multiset(Matching(q, es))[e] == if Priority(q, e) > 0 then multiset(es)[e] else 0
    decreases |es|
  {
    if |es| > 0 {
      MatchingCount(q, es[1..], e);
      assert es == [es[0]] + es[1..];
      assert multiset(es) == multiset{es[0]} + multiset(es[1..]);
      var head := if Priority(q, es[0]) > 0 then [es[0]] else [];
      assert multiset(Matching(q, es)) == multiset(head) + multiset(Matching(q, es[1..]));
    }
  }

  /** The non-matches keep every other entry with its multiplicity. */
  lemma {:induction false} NotMatchingCount(q: string, es: seq<Entry>, e: Entry)
    ensures multiset(NotMatching(q, es))[e] == if Priority(q, e) > 0 then 0 else multiset(es)[e]
    decreases |es|
  {
    if |es| > 0 {
      NotMatchingCount(q, es[1..], e);
      assert es == [es[0]] + es[1..];
      assert multiset(es) == multiset{es[0]} + multiset(es[1..]);
      var head := if Priority(q, es[0]) > 0 then [] else [es[0]];
      assert multiset(NotMatching(q, es)) == multiset(head) + multiset(NotMatching(q, es[1..]));
    }
  }

  /** Splitting by match loses and duplicates no entry. */
  lemma MatchingSplit(q: string, es: seq<Entry>)
    ensures multiset(Matching(q, es)) + multiset(NotMatching(q, es)) == multiset(es)
  {
    forall e
      ensures (multiset(Matching(q, es)) + multiset(NotMatching(q, es)))[e] == multiset(es)[e]
    {
      MatchingCount(q, es, e);
      NotMatchingCount(q, es, e);
    }
  }

  /** Worked example: for the query `al`, California matches by name
      substring only, so it ranks after Alabama and Alaska, which match by
      name prefix. */
  lemma RankingExample()
    ensures Priority("al", Entry("Alabama", "AL")) == 1
    ensures Priority("al", Entry("California", "CA")) == 3
  {
    assert Lower("Alabama")[..2] == "al";
    var name := Lower("California");
    assert name[..2] == "ca";
    assert Lower("CA")[..2] == "ca";
    assert Includes(name, "al") by {
      assert name[1..3] == "al";
      assert OccursAt(name, "al", 1);
      IncludesIff(name, "al");
    }
  }

  /** Worked example: `ab` occurs inside "alabama", so Alabama matches. */
  lemma SubstringExample()
    ensures Priority("ab", Entry("Alabama", "AL")) == 3
  {
    var name := Lower("Alabama");
    assert name[..2] == "al";
    assert Lower("AL") == "al";
    assert Includes(name, "ab") by {
      assert name[2..4] == "ab";
      assert OccursAt(name, "ab", 2);
      IncludesIff(name, "ab");
    }
  }

  // ---------------------------------------------------------------------------
  // The transitions

  /** The filtered page shows exactly the ranked matches. */
  lemma FilteredVisible(items: seq<Item>, q: string)
    ensures Visible(Filtered(items, q)) == Sort(Matching(q, Entries(items)), RankKey(q))
  {
    var es := Entries(items);
    var sorted := Sort(Matching(q, es), RankKey(q));
    VisibleAppend(Hidden(NotMatching(q, es)), Shown(sorted));
    VisibleHidden(NotMatching(q, es));
    VisibleShown(sorted);
  }

  /** The filtered page hides exactly the entries that do not match. */
  lemma FilteredHides(items: seq<Item>, q: string)
    ensures forall i :: 0 <= i < |Filtered(items, q)| ==>
      (Filtered(items, q)[i].hidden <==> Priority(q, Filtered(items, q)[i].entry) <= 0)
  {
    var es := Entries(items);
    var sorted := Sort(Matching(q, es), RankKey(q));
    var r := Filtered(items, q);
    var h := |NotMatching(q, es)|;
    forall i | 0 <= i < |r|
      ensures r[i].hidden <==> Priority(q, r[i].entry) <= 0
    {
      if i >= h {
        assert r[i] == Shown(sorted)[i - h];
        assert sorted[i - h] in multiset(Matching(q, es));
      } else {
        assert r[i] == Hidden(NotMatching(q, es))[i];
      }
    }
  }

  /** Filtering only reorders the items. */
  lemma FilteredEntries(items: seq<Item>, q: string)
    ensures multiset(Entries(Filtered(items, q))) == multiset(Entries(items))
  {
    var es := Entries(items);
    var sorted := Sort(Matching(q, es), RankKey(q));
    EntriesAppend(Hidden(NotMatching(q, es)), Shown(sorted));
    MatchingSplit(q, es);
  }

  /** A non-empty query shows exactly the matching entries, each as often as it
      is on the page, ranked by priority and then lower-cased name; it hides
      exactly the others, clears the highlight, and opens the dropdown iff
      something matched. */
  lemma InputFilters(d: Dropdown, text: string)
    requires JsTrim(Lower(text)) != []
    ensures var q := JsTrim(Lower(text));
      var d' := Input(d, text);
      && (forall e :: multiset(Visible(d'.items))[e] ==
            if Priority(q, e) > 0 then multiset(Entries(d.items))[e] else 0)
      && SortedBy(Visible(d'.items), RankKey(q))
      && (forall i :: 0 <= i < |d'.items| ==>
            (d'.items[i].hidden <==> Priority(q, d'.items[i].entry) <= 0))
      && multiset(Entries(d'.items)) == multiset(Entries(d.items))
      && (d'.open <==> |Visible(d'.items)| > 0)
      && d'.highlighted == -1 && MarksAt(d'.items, -1)
      && d'.input == text && d'.selected == d.selected
  {
    var q := JsTrim(Lower(text));
    var es := Entries(d.items);
    var items := Filtered(d.items, q);
    var d' := Input(d, text);
    InputNonEmpty(d, text);
    FilteredVisible(d.items, q);
    FilteredHides(d.items, q);
    FilteredEntries(d.items, q);
    forall e
      ensures multiset(Visible(items))[e] == if Priority(q, e) > 0 then multiset(es)[e] else 0
    {
      MatchingCount(q, es, e);
    }
  }

  /** What the non-empty branch of `handleStatesInput` does to the state record. */
  lemma InputNonEmpty(d: Dropdown, text: string)
    requires JsTrim(Lower(text)) != []
    ensures var q := JsTrim(Lower(text));
      var d' := Input(d, text);
      && d'.items == Filtered(d.items, q)
      && (d'.open <==> |Matching(q, Entries(d.items))| > 0)
      && |Visible(d'.items)| == |Matching(q, Entries(d.items))|
      && MarksAt(d'.items, -1)
      && d'.highlighted == -1 && d'.input == text && d'.selected == d.selected
  {
    var q := JsTrim(Lower(text));
    FilteredUnmarked(d.items, q);
    UnmarkUnmarked(Filtered(d.items, q));
    FilteredVisible(d.items, q);
  }

  /** No item is highlighted after filtering. */
  lemma FilteredUnmarked(items: seq<Item>, q: string)
    ensures forall i :: 0 <= i < |Filtered(items, q)| ==> !Filtered(items, q)[i].marked
    ensures MarksAt(Filtered(items, q), -1)
  {
    var es := Entries(items);
    var a: seq<Item> := Hidden(NotMatching(q, es));
    var b: seq<Item> := Shown(Sort(Matching(q, es), RankKey(q)));
    var ab: seq<Item> := a + b;
    assert forall i :: 0 <= i < |ab| ==> !ab[i].marked;
  }

  /** An empty (all-whitespace) query shows every entry, sorted by name, with no
      class left on any item, opens the dropdown, and leaves the highlight index alone. */
  lemma InputRestores(d: Dropdown, text: string)
    requires JsTrim(Lower(text)) == []
    ensures var d' := Input(d, text);
      && (forall i :: 0 <= i < |d'.items| ==> !d'.items[i].hidden && !d'.items[i].marked)
      && Visible(d'.items) == Entries(d'.items)
      && SortedBy(Entries(d'.items), NameKey)
      && multiset(Entries(d'.items)) == multiset(Entries(d.items))
      && d'.open && d'.highlighted == d.highlighted
      && d'.input == text && d'.selected == d.selected
  {
    VisibleShown(Sort(Entries(d.items), NameKey));
  }

  /** `clearStateSelection`: nothing selected, an empty box, no highlight, and
      every entry shown in name order; the open/closed state is untouched. */
  lemma ClearResets(d: Dropdown)
    ensures var d' := Clear(d);
      && d'.selected == None && d'.input == [] && d'.highlighted == -1
      && (forall i :: 0 <= i < |d'.items| ==> !d'.items[i].hidden && !d'.items[i].marked)
      && Visible(d'.items) == Entries(d'.items)
      && SortedBy(Entries(d'.items), NameKey)
      && multiset(Entries(d'.items)) == multiset(Entries(d.items))
      && d'.open == d.open
  {
    VisibleShown(Sort(Entries(d.items), NameKey));
  }

  /** Clearing twice is clearing once. */
  lemma ClearIdempotent(d: Dropdown)
    ensures Clear(Clear(d)) == Clear(d)
  {
    var sorted := Sort(Entries(d.items), NameKey);
    SortOfSorted(sorted, NameKey);
  }

  /** Enter on a highlighted item selects exactly that item, fills the box with
      its name and closes the dropdown. */
  lemma EnterSelectsHighlighted(d: Dropdown, i: nat)
    requires Wf(d) && i < |d.items| && d.items[i].marked
    ensures var d' := KeyNav(d, Enter);
      && d'.selected == Some(d.items[i].entry)
      && d'.input == d.items[i].entry.name
      && !d'.open && d'.highlighted == -1 && MarksAt(d'.items, -1)
      && Visible(d'.items) == Visible(d.items)
  {
    assert !MarksAt(d.items, -1);
    VisibleRankIndex(d.items, i);
    UnmarkShape(d.items);
  }

  /** Enter with no highlight index does nothing. */
  lemma EnterWithoutHighlight(d: Dropdown)
    requires Wf(d) && d.highlighted == -1
    ensures KeyNav(d, Enter) == d
  {
  }

  /** The index left in place by an emptied query is still honoured by Enter,
      although no item shows the `highlighted` class any more. */
  lemma EnterAfterEmptiedQuery(d: Dropdown, text: string)
    requires Wf(d) && d.highlighted >= 0 && JsTrim(Lower(text)) == []
    ensures var d1 := Input(d, text);
      && MarksAt(d1.items, -1)
      && 0 <= d1.highlighted < |Visible(d1.items)|
      && KeyNav(d1, Enter).selected == Some(Visible(d1.items)[d.highlighted])
  {
    InputRestores(d, text);
  }

  /** One arrow key keeps the invariant and the visible list, and moves the
      highlight to `h`. Nothing else changes: a closed dropdown stays closed,
      the selection and the box text stay, and the items keep their order. */
  lemma ArrowStep(d: Dropdown, key: KeyName, h: int)
    requires Wf(d) && (key == ArrowDown || key == ArrowUp)
    requires h == if key == ArrowDown then Min(d.highlighted + 1, |Visible(d.items)| - 1)
                  else Max(d.highlighted - 1, -1)
    ensures Wf(KeyNav(d, key))
    ensures Visible(KeyNav(d, key).items) == Visible(d.items)
    ensures KeyNav(d, key).highlighted == h
    ensures && KeyNav(d, key).open == d.open
            && KeyNav(d, key).selected == d.selected
            && KeyNav(d, key).input == d.input
            && Entries(KeyNav(d, key).items) == Entries(d.items)
  {
    KeyNavWf(d, key);
    MarkVisibleShape(d.items, h);
  }

  /** Repeated ArrowDown walks the highlight towards the last visible item and
      stops there: no wrap-around. */
  lemma {:induction false} ArrowDownClamps(d: Dropdown, k: nat)
    requires Wf(d)
    ensures var d' := Repeat(d, ArrowDown, k);
      && Wf(d')
      && Visible(d'.items) == Visible(d.items)
      && d'.highlighted == Min(d.highlighted + k, |Visible(d.items)| - 1)
    decreases k
  {
    if k > 0 {
      ArrowStep(d, ArrowDown, Min(d.highlighted + 1, |Visible(d.items)| - 1));
      ArrowDownClamps(KeyNav(d, ArrowDown), k - 1);
    }
  }

  /** Repeated ArrowUp walks the highlight back to -1 and stops there. */
  lemma {:induction false} ArrowUpClamps(d: Dropdown, k: nat)
    requires Wf(d)
    ensures var d' := Repeat(d, ArrowUp, k);
      && Wf(d')
      && Visible(d'.items) == Visible(d.items)
      && d'.highlighted == Max(d.highlighted - k, -1)
    decreases k
  {
    if k > 0 {
      ArrowStep(d, ArrowUp, Max(d.highlighted - 1, -1));
      ArrowUpClamps(KeyNav(d, ArrowUp), k - 1);
    }
  }

  /** Every key keeps the invariant and the entries on the page, in place. */
  lemma KeyNavWf(d: Dropdown, key: KeyName)
    requires Wf(d)
    ensures Wf(KeyNav(d, key))
    ensures multiset(Entries(KeyNav(d, key).items)) == multiset(Entries(d.items))
    ensures Entries(KeyNav(d, key).items) == Entries(d.items)
  {
    match key
    case ArrowDown =>
      var h := Min(d.highlighted + 1, |Visible(d.items)| - 1);
      MarkVisibleShape(d.items, h);
      MarkVisibleMarks(d.items, h);
    case ArrowUp =>
      var h := Max(d.highlighted - 1, -1);
      MarkVisibleShape(d.items, h);
      MarkVisibleMarks(d.items, h);
    case Enter =>
      UnmarkShape(d.items);
    case Escape =>
      UnmarkShape(d.items);
    case OtherKey =>
  }

  /** The initial page satisfies the invariant: nothing selected, no
      highlight index and no item marked, every state shown in order. */
  lemma InitWf(states: seq<Entry>)
    ensures Wf(Init(states))
    ensures Visible(Init(states).items) == states
    ensures && Init(states).selected == None
            && Init(states).highlighted == -1
            && MarksAt(Init(states).items, -1)
  {
    VisibleShown(states);
  }

  /** Escape and a click outside both close the dropdown: the index goes back
      to -1 and no item stays marked, while the entries, the selection and the
      box text stay. Focusing the box only opens it. */
  lemma DismissAndFocus(d: Dropdown)
    ensures var d' := KeyNav(d, Escape);
      && !d'.open && d'.highlighted == -1 && MarksAt(d'.items, -1)
      && Entries(d'.items) == Entries(d.items)
      && d'.selected == d.selected && d'.input == d.input
    ensures Step(d, ClickOutside) == KeyNav(d, Escape)
    ensures var d' := Step(d, FocusInput);
      && d'.open && d'.items == d.items && d'.highlighted == d.highlighted
      && d'.selected == d.selected && d'.input == d.input
  {
    UnmarkShape(d.items);
  }

  /** Clicking an item selects its entry, fills the box with its name and
      closes the dropdown, whatever is highlighted. */
  lemma ClickSelects(d: Dropdown, i: nat)
    requires i < |d.items|
    ensures var d' := Step(d, ClickItem(i));
      && d'.selected == Some(d.items[i].entry) && d'.input == d.items[i].entry.name
      && !d'.open && d'.highlighted == -1 && MarksAt(d'.items, -1)
      && Entries(d'.items) == Entries(d.items)
  {
    UnmarkShape(d.items);
  }

  /** Every event keeps the invariant, and no event adds or removes an entry. */
  lemma StepWf(d: Dropdown, ev: Event)
    requires Wf(d) && ValidEvent(d, ev)
    ensures Wf(Step(d, ev))
    ensures multiset(Entries(Step(d, ev).items)) == multiset(Entries(d.items))
  {
    match ev
    case Typed(text) =>
      if JsTrim(Lower(text)) == [] {
        InputRestores(d, text);
      } else {
        InputFilters(d, text);
      }
    case KeyDown(key) =>
      KeyNavWf(d, key);
    case ClickItem(i) =>
      UnmarkShape(d.items);
    case FocusInput =>
    case ClickOutside =>
      UnmarkShape(d.items);
    case ClickClear =>
      ClearResets(d);
  }
}

=== FILE: text.dfy ===
/**
 String primitives the two source languages supply as library calls:
 JavaScript's `trim`, `toLowerCase`, `startsWith`, `includes` and the
 comparison behind `localeCompare`, and Python's `strip`, `lower`,
 `startswith` and the `in` substring test. Case mapping is ASCII only and
 the comparison is plain code-point lexicographic order.
 */
module Text {

  /** The characters JavaScript's `String.prototype.trim` removes:
      WhiteSpace (including every Zs character and U+FEFF) and LineTerminator. */
  predicate IsJsWhitespace(c: char) {
    c == '\t' || c == '\n' || c == '\U{000B}' || c == '\U{000C}' || c == '\r' ||
    c == ' ' || c == '\U{00A0}' || c == '\U{1680}' ||
    ('\U{2000}' <= c <= '\U{200A}') ||
    c == '\U{2028}' || c == '\U{2029}' || c == '\U{202F}' || c == '\U{205F}' ||
    c == '\U{3000}' || c == '\U{FEFF}'
  }

  /** The characters Python's `str.strip()` removes (those for which `str.isspace` holds). */
  predicate IsPyWhitespace(c: char) {
    ('\t' <= c <= '\r') || ('\U{001C}' <= c <= '\U{001F}') ||
    c == ' ' || c == '\U{0085}' || c == '\U{00A0}' || c == '\U{1680}' ||
    ('\U{2000}' <= c <= '\U{200A}') ||
    c == '\U{2028}' || c == '\U{2029}' || c == '\U{202F}' || c == '\U{205F}' ||
    c == '\U{3000}'
  }

  /** Drops the leading characters satisfying `ws`. */
  function StripLeft(s: string, ws: char -> bool): (r: string)
    ensures |r| <= |s| && r == s[|s| - |r|..]
    ensures forall k :: 0 <= k < |s| - |r| ==> ws(s[k])
    ensures |r| > 0 ==> !ws(r[0])
  {
    if |s| > 0 && ws(s[0]) then StripLeft(s[1..], ws) else s
  }

  /** Drops the trailing characters satisfying `ws`. */
  function StripRight(s: string, ws: char -> bool): (r: string)
    ensures |r| <= |s| && r == s[..|r|]
    ensures forall k :: |r| <= k < |s| ==> ws(s[k])
    ensures |r| > 0 ==> !ws(r[|r| - 1])
  {
    if |s| > 0 && ws(s[|s| - 1]) then StripRight(s[..|s| - 1], ws) else s
  }

  lemma StripSlice(s: string, l: string, r: string)
    requires |l| <= |s| && l == s[|s| - |l|..]
    requires |r| <= |l| && r == l[..|r|]
    ensures r == s[|s| - |l|..|s| - |l| + |r|]
  {
  }

  /** Removes the whitespace at both ends: the result is the slice of `s`
      between the first and the last non-whitespace character. */
  function Strip(s: string, ws: char -> bool): (r: string)
    ensures exists i, j ::
              && 0 <= i <= j <= |s| && r == s[i..j]
              && (forall k :: 0 <= k < i ==> ws(s[k]))
              && (forall k :: j <= k < |s| ==> ws(s[k]))
    ensures |r| > 0 ==> !ws(r[0]) && !ws(r[|r| - 1])
    ensures (forall k :: 0 <= k < |s| ==> ws(s[k])) <==> r == []
  {
    var l := StripLeft(s, ws);
    var r := StripRight(l, ws);
    StripSlice(s, l, r);
    r
  }

  /** JavaScript `s.trim()`. */
  function JsTrim(s: string): string {
    Strip(s, IsJsWhitespace)
  }

  /** Python `s.strip()`. */
  function PyStrip(s: string): string {
    Strip(s, IsPyWhitespace)
  }

  /** ASCII case mapping of one character. */
  function LowerChar(c: char): char {
    if 'A' <= c <= 'Z' then (c as int + 32) as char else c
  }

  /** `toLowerCase()` / `lower()`, restricted to ASCII letters. */
  function Lower(s: string): (r: string)
    ensures |r| == |s|
    ensures forall i :: 0 <= i < |s| ==> r[i] == LowerChar(s[i])
    ensures forall i :: 0 <= i < |r| ==> !('A' <= r[i] <= 'Z')
  {
    seq(|s|, i requires 0 <= i < |s| => LowerChar(s[i]))
  }

  /** `s.startsWith(p)` / `s.startswith(p)`. */
  predicate StartsWith(s: string, p: string) {
    |p| <= |s| && s[..|p|] == p
  }

  /** `s.includes(p)` / `p in s`, scanning the start positions left to right. */
  predicate Includes(s: string, p: string)
    decreases |s|
  {
    StartsWith(s, p) || (|s| > 0 && Includes(s[1..], p))
  }

  /** Reference definition of the substring test: `p` occurs at some position of `s`. */
  ghost predicate OccursAt(s: string, p: string, i: int) {
    0 <= i && i + |p| <= |s| && s[i..i + |p|] == p
  }

  /** The scanning test agrees with the positional definition, in both directions. */
  lemma {:induction false} IncludesIff(s: string, p: string)
    ensures Includes(s, p) <==> exists i :: OccursAt(s, p, i)
    decreases |s|
  {
    if StartsWith(s, p) {
      assert OccursAt(s, p, 0);
    } else if |s| > 0 {
      IncludesIff(s[1..], p);
      if exists i :: OccursAt(s[1..], p, i) {
        var i :| OccursAt(s[1..], p, i);
        assert s[i + 1..i + 1 + |p|] == s[1..][i..i + |p|];
        assert OccursAt(s, p, i + 1);
      }
      if exists i :: OccursAt(s, p, i) {
        var i :| OccursAt(s, p, i);
        assert s[1..][i - 1..i - 1 + |p|] == s[i..i + |p|];
        assert OccursAt(s[1..], p, i - 1);
      }
    }
  }

  /** A substring of either part is a substring of the concatenation. */
  lemma IncludesAppend(a: string, b: string, p: string)
    requires Includes(a, p) || Includes(b, p)
    ensures Includes(a + b, p)
  {
    IncludesIff(a, p);
    IncludesIff(b, p);
    IncludesIff(a + b, p);
    if Includes(a, p) {
      var i :| OccursAt(a, p, i);
      assert (a + b)[i..i + |p|] == a[i..i + |p|];
      assert OccursAt(a + b, p, i);
    } else {
      var i :| OccursAt(b, p, i);
      assert (a + b)[|a| + i..|a| + i + |p|] == b[i..i + |p|];
      assert OccursAt(a + b, p, |a| + i);
    }
  }

  /** Lexicographic order on code points: `a` sorts no later than `b`. */
  predicate LexLe(a: string, b: string)
    decreases |a|
  {
    |a| == 0 || (|b| > 0 && (a[0] < b[0] || (a[0] == b[0] && LexLe(a[1..], b[1..]))))
  }

  lemma {:induction false} LexLeRefl(a: string)
    ensures LexLe(a, a)
    decreases |a|
  {
    if |a| > 0 {
      LexLeRefl(a[1..]);
    }
  }

  lemma {:induction false} LexLeTotal(a: string, b: string)
    ensures LexLe(a, b) || LexLe(b, a)
    decreases |a|
  {
    if |a| > 0 && |b| > 0 && a[0] == b[0] {
      LexLeTotal(a[1..], b[1..]);
    }
  }

  lemma {:induction false} LexLeTrans(a: string, b: string, c: string)
    requires LexLe(a, b) && LexLe(b, c)
    ensures LexLe(a, c)
    decreases |a|
  {
    if |a| > 0 && a[0] == b[0] && b[0] == c[0] {
      LexLeTrans(a[1..], b[1..], c[1..]);
    }
  }

  lemma {:induction false} LexLeAntisym(a: string, b: string)
    requires LexLe(a, b) && LexLe(b, a)
    ensures a == b
    decreases |a|
  {
    if |a| > 0 {
      LexLeAntisym(a[1..], b[1..]);
      assert a == [a[0]] + a[1..];
      assert b == [b[0]] + b[1..];
    }
  }
}

=== FILE: wrappers.dfy ===
/** An optional value, shared by the other modules. */
module Wrappers {

  /** A value that may be absent: JavaScript's `null`, Python's early `return`. */
  datatype Option<+T> = None | Some(value: T)
}
